=== FILE: README.md ===
# nvv-graph core in Dafny

nvv-graph serves graph data from the ICIJ Offshore Leaks database. It works
in three steps:

1. The ICIJ processor (`process_data`) locates each configured node file. It
   converts CSV files to Parquet, types every relationship by the node types
   of its two endpoints, and writes the typed relationships to
   `data/relationships.parquet`.
2. The loader (`load_data`) builds the in-memory property graph from the
   rewritten sources:
   - one table per source;
   - `nodes_map`, from node id to label;
   - `relationships_typed`;
   - one `rel_{start}_{end}` partition per distinct label pair;
   - the vertex and edge definitions of `icij_graph`.
3. The HTTP API answers two queries:
   - `GET /node/{type}/{id}` returns one record;
   - `GET /node/{type}/{id}/neighbors` returns the one-hop neighbourhood,
     found through the `rel_` partitions.

The model keeps the data the three steps compute and leaves out the SQL text
that computes them. A table is a set of column names plus a sequence of rows.
A row maps column names to values: text, integer, NaN or NULL. The database
is the list of table names in `SHOW TABLES` order, the tables themselves, and
the vertex and edge labels the property graph declares.
Every error path of the source is a `Fault`:

| source error | `Fault` | HTTP status |
|---|---|---|
| unknown node type | `InvalidNodeType` | 400 |
| missing `id_field` | `MissingIdField` | 500 |
| any error the engine raises | `EngineError` | 500 |
| a data file the processor cannot find | `FileNotFound` | — |

The modules, from the bottom up:

- `Outcomes`: `Option`, `Result` and the HTTP status of each fault.
- `Strings`:
  - Python's `str.replace`, `endswith` and ASCII `lower`;
  - the CSV→Parquet extension swap.
- `Paths`: POSIX `basename` and `join`.
- `Dicts`: an insertion-ordered dictionary with Python's assignment semantics.
- `Tables`:
  - values and rows;
  - SQL equality, under which NULL never equals anything;
  - the rendering of ids as text;
  - the NaN→NULL clean-up.
- `Config`: the source records and the lookup of a source by node type.
- `Naming`:
  - the partition name `rel_{start}_{end}` and edge label `related_to_{start}_{end}`;
  - the API's parser that splits a partition name back into two known types.
- `Enrichment`: the id→type map and the double join that types a
  relationship by its endpoints. The loader and the processor share it.
- `Loader`: `load_data` steps 1–4.
- `NodeLookup`: `get_node`.
- `Neighbors`: `get_node_neighbors`.
- `Processor`: `process_data`.

Where the code and the written design disagree, the model follows the code:

- With no applicable partition (an unknown direction, or no `rel_` table for
  the type), neighbours answers `{nodes: [], edges: []}`. It does not fetch
  the queried node.
- Neighbours does not deduplicate nodes by id. The node list holds one node
  per fetched property row: in table order within a type, and in group order
  across types. A table that stores an id twice gives that node twice
  (`Neighbors.NodesFromSelects`, `Neighbors.FetchAllConcat`). The queried
  node appears only if its property row is found.
- When no node source has a node type, the processor passes the relationship
  source through unchanged. The path it keeps is the configured one, not the
  one it resolved.
- The loader keys node tables by the `label` field, while the API and the
  processor key them by `node_type`. `Source` carries both fields.

## Model

| member | source | states |
|---|---|---|
| Outcomes.Status | src/api.py:22-57 | an unknown node type is answered with status 400; every other failure (missing id field, engine error) with 500 |
| Config.FirstOfType | src/api.py:16-20 | the source found is the first one declaring the type; none is found exactly when no source declares it |
| Config.TypeSet | src/api.py:102 | the known types are exactly the truthy `node_type` values of the sources |
| Config.KnownTypeHasSource | src/api.py:234 | every known type has a configured source, so the property fetch for a type found by the parser finds its table |
| Strings.Lower | src/api.py:69 | lower-casing keeps the length, maps each of A–Z to its lower-case letter, leaves every other character alone, and leaves no upper-case ASCII letter |
| Strings.LowerIdempotent | src/api.py:69 | lower-casing an already lower-cased name changes nothing |
| Strings.ReplaceAllTrailing | src/icij_processor.py:134 | `str.replace(".csv", ".parquet")` on a path whose only `.csv` is its suffix swaps just that suffix |
| Strings.ReplaceAllAbsent | src/icij_processor.py:54 | `str.replace` leaves a string unchanged when the pattern's first character never occurs in it |
| Strings.SwapExtension | src/icij_processor.py:130-134 | replacing `.csv` by `.parquet` in a path ending `.csv` yields a path ending `.parquet` |
| Paths.Basename | src/icij_processor.py:44 | the base name is a suffix of the path and contains no `/` |
| Paths.BasenameIsLastComponent | src/icij_processor.py:44 | the base name is the whole last component: the whole path, or preceded by a `/` |
| Paths.JoinBasename | src/icij_processor.py:44-45 | joining the data directory with a base name inserts one `/` unless the directory is empty or already ends in `/`; the base name never replaces the directory |
| Paths.BasenameOfJoined | src/icij_processor.py:54 | the base name of `dir/name` is `name` when `name` holds no `/` |
| Tables.Clean | src/api.py:49 | the cleaned record has the same columns, every NaN becomes NULL and no other cell changes |
| Tables.CleanKeepsKey | src/api.py:246-248 | cleaning a row keeps a non-NaN id cell, so the id read back from the cleaned properties is the one matched |
| Naming.ParseSound | src/api.py:119-136 | a parsed partition name splits at an underscore into two known types and rebuilds the name |
| Naming.ParseNoneIff | src/api.py:98-136 | a `rel_` table is skipped exactly when it is not the partition name of any two known types |
| Naming.ParsePartitionName | src/api.py:122-133 | the partition the loader names for two known types without underscores parses back to that pair |
| Naming.PartitionNameInjective | src/loader.py:109 | two pairs of underscore-free types get the same partition name only if they are equal |
| Naming.PartitionNameCollision | src/loader.py:109 | with underscores in type names, the distinct pairs (`a_b`, `c`) and (`a`, `b_c`) get the same partition name |
| Naming.EdgeLabelOfName | src/api.py:138 | the edge label the API queries is the label the loader declared for the same pair |
| Enrichment.UnionIds | src/loader.py:48-53 | the union succeeds exactly when every labelled table exists and has a `node_id` column, and then holds every id of every such table tagged with its label; a missing table or column is an engine error |
| Enrichment.NodesMap | src/loader.py:48-53 | `nodes_map` is built exactly when every labelled table exists with a `node_id` column, and every entry carries one of the dictionary's labels |
| Enrichment.TypesFor | src/loader.py:67-68 | the types found for a value are those of the map entries whose id is SQL-equal to it |
| Enrichment.TypesForSelects | src/loader.py:60-69 | the types found for a value are one per map entry whose id is SQL-equal to it, in `nodes_map` order: an id listed twice under one type yields that type twice |
| Enrichment.JoinMembership | src/loader.py:60-69 | a typed row is in the join exactly when it comes from a relationship whose non-NULL start and end ids meet map entries of its two types |
| Enrichment.JoinResolves | src/loader.py:44-69 | a typed row is in `relationships_typed` exactly when its relationship's endpoints are ids of node tables whose labels are its start and end types |
| Enrichment.JoinDropsUnresolved | src/loader.py:66-68 | a relationship whose start or end id is in no node table contributes no typed row |
| Enrichment.JoinTypesFromMap | src/loader.py:64-65 | the types attached to a typed row are labels present in `nodes_map` |
| Enrichment.JoinOneCount | src/loader.py:66-68 | one relationship contributes (start matches) × (end matches) typed rows |
| Enrichment.JoinCount | src/loader.py:60-69 | the join's size is the sum over relationships of that product |
| Loader.LoadTables | src/loader.py:30-39 | loading succeeds exactly when every source's file exists, and a missing file is an engine error; each table then holds the file of the last source with its name, and only configured tables exist |
| Loader.NodeLabelsLastWins | src/loader.py:27-42 | each label maps to the table of the last source carrying it |
| Loader.DistinctPairs | src/loader.py:84-86 | the combinations are exactly the (start, end) label pairs of typed rows, each once |
| Loader.Partition | src/loader.py:109-114 | a partition holds exactly the typed rows with that start and end label |
| Loader.PartitionNotReversed | src/loader.py:111-113 | a row typed (s, e) is in the (s, e) partition and not in (e, s) unless s = e |
| Loader.VertexDefs | src/loader.py:74-77 | one vertex definition per label, in insertion order, naming that label's table |
| Loader.EdgeDefs | src/loader.py:116-124 | one edge definition per combination, in order, named `rel_{start}_{end}`, labelled `related_to_{start}_{end}` and referencing the two labels' tables |
| Loader.PartitionTables | src/loader.py:109-114 | a table exists for exactly the names of the combinations; since `CREATE OR REPLACE` overwrites, a name shared by several combinations holds the partition of the last of them |
| Loader.LastNamedIndex | src/loader.py:109-114 | the combination whose partition a name ends up holding is the last one with that name, and there is none exactly when no combination has it |
| Loader.UniqueNameKeepsPartition | src/loader.py:109-114 | a combination whose name no other combination shares keeps its own partition under that name |
| Loader.CollisionLosesRows | src/loader.py:109-114 | when two distinct combinations share a name, no partition table holds any row of the earlier one |
| Loader.UnderscoreFreeNamesUnique | src/loader.py:109 | distinct combinations whose start labels contain no `_` get distinct table names |
| Loader.TypedLabelsAreLabels | src/loader.py:116-117 | every label on a typed row is a key of the label dictionary, so the lookups of both tables succeed |
| Loader.LoadData | src/loader.py:13-124 | loading, up to the final `CREATE PROPERTY GRAPH`, succeeds exactly when every file exists, some source is labelled, every labelled table has `node_id` and `relationships` has both endpoint columns; failures are engine errors; on success the labels are the sources' labels, every typed row carries two known labels, the vertex definitions are exactly one per label in insertion order, and each edge table is named and labelled after its pair, references the pair's tables and has a partition table |
| Loader.LoadDataSynthesizes | src/loader.py:74-124 | a loaded graph's vertex definitions, edge definitions and partition tables are those its own labels and typed rows determine |
| Loader.PartitionsCoverTyped | src/loader.py:84-114 | when no two combinations share a table name, the partitions together hold every typed row exactly as often as `relationships_typed` does |
| Loader.SchemaPartitions | src/loader.py:84-124 | in a loaded graph the edge definitions follow the distinct label pairs in order, and a partition table exists for exactly their names. A pair whose name no other pair shares holds exactly its typed rows. Labels without `_` keep all names apart, and then the partitions together hold `relationships_typed` as a multiset |
| Loader.SchemaCollision | src/loader.py:109-114 | in a loaded graph, when two edge definitions share a name, the typed rows of the earlier pair exist but no partition table holds any of them |
| Loader.LoadDataTypedRows | src/loader.py:44-69 | a loaded graph's typed rows are exactly the relationships whose endpoints resolve to labelled node ids |
| NodeLookup.FirstMatch | src/api.py:43-49 | the match found is the first row whose id cell equals the id; none is found only when no row matches |
| NodeLookup.GetNode | src/api.py:7-57 | an unknown type is a 400 error and a missing id field a 500. It succeeds exactly when the type is known, its id field is set, and its table exists with that column; a known type with its id field set fails otherwise, as an engine error. On success it returns count 0 without data exactly when no row matches, else count 1 and a matching record free of NaN |
| NodeLookup.GetNodeValidatesFirst | src/api.py:16-29 | both validation errors are decided before the database is touched and are never engine errors |
| NodeLookup.GetNodeFirstRow | src/api.py:43-51 | a found record is the first matching row of the source's table, cleaned |
| Neighbors.Plan | src/api.py:98-174 | a sub-query exists for a `rel_` partition exactly when its name parses and its start (`out`/`both`) or end (`in`/`both`) type is the requested one |
| Neighbors.PlanUnknownDirection | src/api.py:141-155 | a direction other than `out`, `in` and `both` plans no sub-query |
| Neighbors.PlanSameTypeTwice | src/api.py:141-174 | a self-loop partition (t, t) asked `both` yields an outward and an inward sub-query |
| Neighbors.Hits | src/api.py:143-174 | a sub-query yields one hit per partition row whose start (outward) or end (inward) id matches, typed by the pair and with the pair's edge label |
| Neighbors.HitsSelects | src/api.py:143-174 | the hits are, in table order, one per matching partition row: a row matching twice over is returned twice |
| Neighbors.RunAll | src/api.py:141-187 | `UNION ALL` succeeds exactly when every partition table exists and the graph declares the two vertex labels and the edge label each `MATCH` pattern names, else it is an engine error. It then holds every hit of every sub-query, as a bag: a hit found twice is kept twice |
| Neighbors.Arrange | src/api.py:183 | the engine's row order is a rearrangement of the union: the same rows with the same multiplicities, and exactly the given order when that order is one |
| Neighbors.Take | src/api.py:183 | `LIMIT n` keeps the first min(n, size) rows of its input, so all of them when they fit |
| Neighbors.EdgesRearranged | src/api.py:181-220 | rearranging the rows rearranges their edges: the same edges with the same multiplicities |
| Neighbors.TypeMap | src/api.py:196-211 | the node map starts with the queried id and holds exactly it and every endpoint id |
| Neighbors.TypeMapLastWins | src/api.py:196-211 | an id's recorded type is the one written last: by the last row naming it, else the queried type |
| Neighbors.Group | src/api.py:224-229 | every id of the map lands in the group of its type, every group is non-empty, and no group holds an id of another type |
| Neighbors.GroupExactlyOne | src/api.py:224-229 | every id of the map is in exactly one group |
| Neighbors.GroupAppend | src/api.py:225-229 | appending one more id to the group of its type keeps every id in its own type's group and no group empty |
| Neighbors.NodesFrom | src/api.py:245-255 | a node is emitted exactly for a fetched row whose rendered id is in the node map, with the cleaned row as its properties |
| Neighbors.NodesFromSelects | src/api.py:245-255 | the nodes of one type are, in table order, one per fetched row whose id is a key, requested and in the node map, built from the cleaned row: a row stored twice gives its node twice, with no deduplication by id |
| Neighbors.FetchGroup | src/api.py:232-243 | a group without a configured source is skipped; a source whose table or id field is missing is an engine error; otherwise only rows whose id is in the group are returned |
| Neighbors.FetchAll | src/api.py:231-255 | fetching succeeds exactly when every group can be fetched, else it is an engine error, and a node is returned exactly when one group's fetch returns it |
| Neighbors.FetchAllConcat | src/api.py:231-255 | fetching the groups of two consecutive runs of types succeeds exactly when both fetches do, and returns the first run's nodes followed by the second's: the per-type results are concatenated in group order, none merged |
| Neighbors.Assemble | src/api.py:196-260 | assembling succeeds exactly when every type in the node map can be fetched (a type without a source is skipped), else it is an engine error; its edges are the result rows' edges |
| Neighbors.TruncateEdges | src/api.py:181-187 | whatever the engine's order, exactly min(`limit`, union size) edges are returned, a sub-bag of the union's edges, and with the same multiplicities when the union fits |
| Neighbors.Traverse | src/api.py:141-260 | the traversal of the planned sub-queries succeeds exactly when every partition table exists, the graph declares the labels every pattern names, and every node type in the slice's node map can be fetched; any failure is an engine error; the edges are a `LIMIT` slice of the union |
| Neighbors.GetNodeNeighbors | src/api.py:58-264 | an unknown (lower-cased) type is 400 and every other failure is an engine error. It succeeds exactly when the type is known and either no sub-query is planned (the empty graph) or the limit is non-negative, every partition table exists, the graph declares the labels every pattern names, and every node type the slice reaches can be fetched. Exactly min(`limit`, union size) edges are returned, a sub-bag of the union's edges, all of them when the union fits |
| Neighbors.NeighborsSucceed | src/api.py:58-264 | a known type, a non-negative limit, existing partition tables whose labels the graph declares, and fetchable tables for every configured type always give an answer |
| Neighbors.NeighborsUnknownDirection | src/api.py:141-179 | with a known type and an unrecognised direction the answer is the empty graph |
| Neighbors.UnionDirection | src/api.py:141-174 | an outward hit starts at the queried id with the requested type; an inward hit ends there |
| Neighbors.UnionComplete | src/api.py:141-174 | every partition row touching the queried id in a requested direction appears in the union |
| Neighbors.EdgeFromUnion | src/api.py:181-220 | every returned edge is the edge of some row of the union |
| Neighbors.NeighborsEdgesTouchNode | src/api.py:202-220 | every returned edge has the queried node as its source or target, and id `rel_{source}_{target}` |
| Neighbors.HitEdgeTouches | src/api.py:141-174 | the edge of an outward hit starts at the queried id, that of an inward hit ends there, and its id is `rel_{source}_{target}` |
| Neighbors.AssembleNodes | src/api.py:222-255 | a node is returned exactly when its id is in the node map under its type and the first source of that type holds a row with that id, cleaned into its properties |
| Neighbors.TypeMapEndpoints | src/api.py:196-211 | every id of the node map other than the queried one is an endpoint of some result row |
| Neighbors.NeighborsRows | src/api.py:181-260 | the graph returned is assembled from min(`limit`, union size) rows, a sub-bag of the union, and the first rows of the engine's order whenever that order is a rearrangement of the union |
| Neighbors.NeighborsNodes | src/api.py:196-255 | every returned node has a stored record and is the queried node or an endpoint of a returned row |
| Processor.ResolveNodePath | src/icij_processor.py:36-128 | the file chosen for a node source exists; when none of the candidates exists the error names the path |
| Processor.FirstExisting | src/icij_processor.py:88-106 | the candidate chosen is the first one that exists |
| Processor.ResolveNodePathFirstCandidate | src/icij_processor.py:44-128 | resolution picks the first existing file among the data-directory name, its sibling extension, the configured path and its sibling extension |
| Processor.FindableResolves | src/icij_processor.py:44-128 | the node lookup succeeds exactly when one of the places it tries holds a file |
| Processor.FindableGrows | src/icij_processor.py:130-148 | a file that can be found stays findable when conversions add files |
| Processor.CandidatesRecorded | src/icij_processor.py:59-82 | every candidate is recorded as itself, except a CSV file standing in for a configured Parquet path: the configuration entry keeps the configured path, while the emitted source points at the stand-in's Parquet sibling, because a CSV input is always converted |
| Processor.ParquetStandInsAreCsv | src/icij_processor.py:59-106 | both stand-ins tried for a configured Parquet path (in the data directory and next to it) are CSV paths |
| Processor.ResolvedNonCsv | src/icij_processor.py:149-154 | a resolved file that is not CSV is recorded as itself |
| Processor.ResolveRelPath | src/icij_processor.py:159-200 | the relationship file chosen exists; otherwise the error names the configured path |
| Processor.ResolveRelPathFirstCandidate | src/icij_processor.py:161-187 | the relationship file is the first existing one among the data-directory name, its Parquet sibling, the configured path and its Parquet sibling |
| Processor.RelFindableResolves | src/icij_processor.py:159-200 | the relationship lookup succeeds exactly when one of the places it tries holds a file |
| Processor.RelFindableGrows | src/icij_processor.py:159-187 | a relationship file that can be found stays findable when node conversions add files |
| Processor.RelParquetNeverFallsBack | src/icij_processor.py:177-200 | a Parquet relationship path never falls back to a CSV file |
| Processor.NodeSources | src/icij_processor.py:21-28 | the node pass visits exactly the sources whose table is not `relationships` |
| Processor.NodeSourcesSelects | src/icij_processor.py:21-28 | the node sources are the sources other than the relationship table, in configuration order, each once per occurrence |
| Processor.NodeSourcesConcat | src/icij_processor.py:21-28 | the node sources of two consecutive runs of sources are those of the first followed by those of the second |
| Processor.TracksAppend | src/icij_processor.py:147-154 | `node_types` keeps mapping each truthy type to the file of the last source of that type |
| Processor.Admit | src/icij_processor.py:22-154 | one node source succeeds exactly when its file can be found among the current files, and otherwise fails naming its path. On success it is emitted with only its path rewritten: a CSV input to its `.csv`→`.parquet` replacement, any other input to itself. That path now holds the input file's table, and no other file changes. Its type is recorded |
| Processor.ConvertedPath | src/icij_processor.py:130-154 | the path a node source is loaded from is never a CSV path: a CSV input's replacement ends in `.parquet`, any other input is kept |
| Processor.NodePass | src/icij_processor.py:21-154 | the node pass emits the node sources in order with only their paths changed, each to an existing non-CSV file, or fails on one of their paths |
| Processor.NodePassPrefix | src/icij_processor.py:21-154 | the pass over the first sources succeeds whenever the whole pass does, and emits a prefix of what the whole pass emits |
| Processor.NodePassEmits | src/icij_processor.py:36-154 | each node source is emitted pointing at the file it resolves to among the files present at its step, converted to its `.parquet` replacement if that file is CSV; its step stores the resolved file's table under that path and changes no other file |
| Processor.NodePassSucceeds | src/icij_processor.py:21-154 | when every node source's file can be found before the pass starts, the pass succeeds |
| Processor.NodePassFailure | src/icij_processor.py:88-128 | a failed node pass names a node source whose file could not be found anywhere before the pass started |
| Processor.FirstWithTable | src/icij_processor.py:157 | the relationship source is the first source of table `relationships`: every earlier source has another table; there is none only when no source has that table |
| Processor.Enrich | src/icij_processor.py:226-237 | a typed row is written for each relationship and each pair of types its non-NULL endpoints have in the map, with two added type columns |
| Processor.EnrichTypes | src/icij_processor.py:227-237 | every type column written by the enrichment holds a type of some `nodes_map` entry |
| Processor.TracksTypes | src/icij_processor.py:218-222 | `nodes_map` is built exactly when some node source has a truthy type, and only from node types |
| Processor.TypeRelationships | src/icij_processor.py:210-240 | enrichment succeeds exactly when the input and every typed node file can be read, and every type written is a tracked node type |
| Processor.TypeRelationshipsRows | src/icij_processor.py:216-240 | the written rows are exactly the resolved relationships, each tagged with its types |
| Processor.ProcessData | src/icij_processor.py:6-251 | it succeeds exactly when the node pass succeeds and step 2 can go through after it: no relationship source, or one whose file can be found and, when node types exist, whose typing queries run; failure is a missing file or an engine error. On success the node sources come first, changed only in path, each path existing and not CSV. The relationship source comes last, pointing at `data/relationships.parquet` when some node source has a type and unchanged otherwise. Every type written there is a node type |
| Processor.ProcessDataFailure | src/icij_processor.py:88-237 | a failed ingestion names a node source or the relationship source whose file could not be found anywhere before it started, or the typing queries failed for a relationship source with node types |
| Processor.ProcessDataSucceedsUntyped | src/icij_processor.py:6-251 | when every node file and the relationship file can be found before the ingestion starts and no node source has a type, the ingestion succeeds |
| Processor.ProcessDataEmits | src/icij_processor.py:36-154 | every node source leaves the ingestion pointing at the file it resolved to at its step, converted to its `.parquet` replacement if that file is CSV |
| Processor.ProcessDataFiles | src/icij_processor.py:157-249 | the files after the ingestion are those after the node pass, plus, with a relationship source and node types, the typing of the relationship file found, stored at `data/relationships.parquet` |
| Processor.AddRelationships | src/icij_processor.py:157-249 | without a relationship source nothing is added. Otherwise it succeeds exactly when the relationship file can be found and, when node types exist, the node files have ids and the relationship file has both endpoint columns. It fails only on a file not found anywhere (naming its path) or an engine error. It appends the source pointing at the typed file when node types exist, and unchanged when none do. The typed file is the typing of the relationship file found, and no other file changes |
| Processor.ProcessOneSource | src/icij_processor.py:21-154 | a configuration of one node source is processed by exactly one step of the node pass |
| Processor.CsvInDataDirResolves | src/icij_processor.py:44-51 | a CSV path whose base name exists in the data directory resolves there, to a CSV file |
| Processor.ParquetInDataDirResolves | src/icij_processor.py:52-58 | a CSV path missing from the data directory, whose Parquet sibling is there, resolves to that non-CSV sibling |
| Processor.CsvFoundInDataDir | src/icij_processor.py:44-148 | a CSV source found in the data directory is converted, and the returned source points at the Parquet file next to it (as in tests/test_path_resolution.py lines 10-38) |
| Processor.ParquetFoundInDataDir | src/icij_processor.py:44-154 | a CSV source whose Parquet sibling is in the data directory is pointed at that file without any conversion (as in tests/test_path_resolution.py lines 42-60) |

## Left out

- The SQL engine: DDL, query text, `read_csv_auto`, `COPY` and Parquet encoding.
  - Tables are values.
  - A file is the table it holds.
  - A failing statement is `EngineError`.
- Installing and loading the DuckPGQ extension, YAML parsing of the config,
  and the debug printing and directory listings. These are I/O with no effect
  on the result.
- `SHOW TABLES` failing (the `except` at src/api.py:88-90): the table list is
  an input, so its failure is not modelled.
- The `depth` parameter: the source accepts it and ignores it.
- Neighbors.RunAll: the `MATCH` binds its pattern through the graph's
  labels, and the model checks that the graph declares them (`Bound`). It
  then reads the partition table the pattern came from, which is the table
  the loader declared under that edge label. A graph whose edge label names a
  different table is not modelled: after a partition-name collision, or when
  the graph was loaded from other tables. Labels are compared exactly;
  DuckPGQ's handling of label case is not modelled.
- The neighbours `MATCH` on the property graph. It is modelled as a filter
  over the partition's rows on the endpoint id. Whether the endpoints exist as
  vertices is not checked, because the loader only puts rows whose endpoints
  exist into a partition.
- Neighbors.Arrange: the engine's row order under `UNION ALL` and `LIMIT` is
  unspecified. It is a parameter `order`. When `order` is a rearrangement of
  the union it is the order used. Otherwise the stored order is kept.
- Neighbors.GetNodeNeighbors: a negative `LIMIT` is a DuckDB error, modelled as
  `EngineError`. Which rows the limit keeps is the prefix of `order`, as
  `Neighbors.NeighborsRows` states; the model does not pick an order.
- The API compares ids by their text, as Python's `str()` renders them
  (`Tables.Matches`): integers and strings. Floating-point ids and NaN
  ordering are not modelled.
- Enrichment.TypesFor: the joins that type relationships (`Enrichment.Join`,
  and `Enrichment.UnionIds` feeding them) compare ids with SQL equality,
  which the model makes type-strict: an integer id `12` never joins a text id
  `'12'`. DuckDB would instead cast both sides to a common type (or raise an
  error), so the model's joins are exact only when the id columns share one
  type.
- NodeLookup.GetNode: DuckDB casts the bound string id to the id column's
  type. Against an integer column, `'012'` matches `12`, and a non-numeric id
  is a conversion error (a 500). The model compares rendered text. It answers
  count 0 where DuckDB matches after a cast or raises an error.
- Neighbors.GetNodeNeighbors: the same cast applies to the id in the `MATCH`.
  Where DuckDB would raise a conversion error, the model finds no matching
  partition rows.
- Loader.LoadData: the final `CREATE PROPERTY GRAPH` (src/loader.py:126-137)
  is assumed to be accepted whatever it lists. Its "exactly when" covers the
  statements before it. The model does not decide whether DuckPGQ accepts:
  - an empty `EDGE TABLES` list, when no relationship is typed;
  - one vertex table listed twice, when two labels name the same table;
  - one edge table listed twice, when two label pairs share a partition name
    (labels with `_`). `Loader.SchemaCollision` states the rows that are
    lost then.
- Processor.NodePass: conversions add Parquet files during the pass, so a
  later source can be found thanks to an earlier one's conversion. The model
  states a sufficient condition (`Processor.NodePassSucceeds`) and a
  necessary one (`Processor.NodePassFailure`), both over the files present
  before the pass, rather than one condition over the files at each step.
  What each step emits and stores is stated over the files at that step
  (`Processor.NodePassEmits`).
- Processor.ProcessData: the source mutates the caller's configuration. It
  writes each resolved path back into the node source's dictionary
  (src/icij_processor.py:50, 57, 98), and for a file that is not converted it
  emits that same dictionary (line 152). The model is pure: the
  configuration is an input value, and the rewritten paths exist only in the
  output.
- Processor.ProcessData: its exact success condition is stated over the node
  pass's result. In terms of the starting files only, the model gives the
  failure causes (`Processor.ProcessDataFailure`) and the untyped success case
  (`Processor.ProcessDataSucceedsUntyped`).
- Loader.DistinctPairs: `SELECT DISTINCT` and the joins promise no row
  order. The model fixes one: pairs in order of first occurrence, typed rows
  relationship by relationship in `nodes_map` order. The order of the edge
  definitions, and which pair's partition survives a name collision, follow
  from that choice, not from DuckDB.
- The id is interpolated into the neighbours query text. A quote inside it
  would change the query; the model treats the id as a literal.
- Strings.Lower: ASCII case folding only; Python's Unicode `lower` is not
  modelled.
- FastAPI routing and `HTTPException` details: failures are `Fault`s with the
  status `Outcomes.Status` gives.
- A relationship table that already has `start_node_type`/`end_node_type` (or
  `start_label`/`end_label`) columns: the added columns overwrite them, where
  DuckDB would reject or rename the duplicates.
- src/main.py and scripts/verify_graph.py: these are the application wiring
  and a manual check script. They are not part of this model.

=== FILE: config.dfy ===
/** The source catalog read from the configuration file. One list serves
    every component, but each reads different keys: the loader reads
    `label`, the request handlers and the ingestion pass read `node_type`. */
module Config {
  import opened Outcomes

  datatype Source = Source(
    table: string,
    path: string,
    nodeLabel: Option<string>,
    nodeType: Option<string>,
    idField: Option<string>)

  /** The reserved table name of the relationship source. */
  const RelationshipsTable := "relationships"

  /** Python truthiness of an optional string: present and non-empty. */
  predicate Truthy(o: Option<string>) {
    o.Some? && o.value != ""
  }

  /** The first source whose `node_type` equals `t` exactly. */
  function FirstOfType(cfg: seq<Source>, t: string): (r: Option<Source>)
    ensures r.None? <==> forall i :: 0 <= i < |cfg| ==> cfg[i].nodeType != Some(t)
    ensures r.Some? ==> exists i :: 0 <= i < |cfg| && cfg[i] == r.value && cfg[i].nodeType == Some(t)
                                 && forall j :: 0 <= j < i ==> cfg[j].nodeType != Some(t)
  {
    if |cfg| == 0 then None
    else if cfg[0].nodeType == Some(t) then Some(cfg[0])
    else
      var r := FirstOfType(cfg[1..], t);
      assert forall i :: 1 <= i < |cfg| ==> cfg[i] == cfg[1..][i - 1];
      r
  }

  /** The set of node types the request handlers know: every truthy `node_type`. */
  function TypeSet(cfg: seq<Source>): (ts: set<string>)
    ensures "" !in ts
    ensures forall t :: t in ts <==> exists i :: 0 <= i < |cfg| && cfg[i].nodeType == Some(t) && t != ""
  {
    set i | 0 <= i < |cfg| && Truthy(cfg[i].nodeType) :: cfg[i].nodeType.value
  }

  /** A known type always has a configured source. */
  lemma KnownTypeHasSource(cfg: seq<Source>, t: string)
    requires t in TypeSet(cfg)
    ensures FirstOfType(cfg, t).Some?
  {
  }
}

=== FILE: dicts.dfy ===
/** Python's insertion-ordered `dict`: a map together with the order in which
    its keys were first inserted. Overwriting a key keeps its position. */
module Dicts {

  datatype Dict<K(==), V> = Dict(keys: seq<K>, entries: map<K, V>) {

    /** Keys are listed once each, and exactly the keys of the map are listed. */
    ghost predicate Valid() {
      && (forall i, j :: 0 <= i < j < |keys| ==> keys[i] != keys[j])
      && entries.Keys == set k | k in keys
    }

    /** `d[k] = v`. */
    function Put(k: K, v: V): (d: Dict<K, V>)
      requires Valid()
      ensures d.Valid()
      ensures d.entries == entries[k := v]
      ensures k in entries ==> d.keys == keys
      ensures k !in entries ==> d.keys == keys + [k]
    {
      if k in entries then Dict(keys, entries[k := v]) else Dict(keys + [k], entries[k := v])
    }
  }

  function Empty<K(==), V>(): (d: Dict<K, V>)
    ensures d.Valid() && d.keys == [] && d.entries == map[]
  {
    Dict([], map[])
  }
}

=== FILE: enrichment.dfy ===
/** Relationship enrichment, shared by the loader and the ingestion pass:
    union every labelled node table into an id-to-type map, then inner-join
    both endpoints of every relationship row against it. */
module Enrichment {
  import opened Outcomes
  import opened Tables
  import opened Dicts
  import opened Selection

  /** One row of the id-to-type map: a node id and the type of its table. */
  datatype MapEntry = MapEntry(id: Value, nodeType: string)

  /** A relationship row together with the types resolved for its endpoints. */
  datatype TypedRow = TypedRow(row: Row, startType: string, endType: string)

  const StartColumn := "node_id_start"
  const EndColumn := "node_id_end"
  const IdColumn := "node_id"

  /** `SELECT node_id, '{t}' FROM {table}` for one table. */
  function IdsOf(rows: seq<Row>, t: string): (es: seq<MapEntry>)
    ensures |es| == |rows|
    ensures forall i :: 0 <= i < |rows| ==> es[i] == MapEntry(Cell(rows[i], IdColumn), t)
  {
    if rows == [] then [] else [MapEntry(Cell(rows[0], IdColumn), t)] + IdsOf(rows[1..], t)
  }

  /** The node tables of `types` are all readable and carry a `node_id` column. */
  ghost predicate Readable(types: seq<string>, where: map<string, string>, store: map<string, Table>)
    requires forall t :: t in types ==> t in where
  {
    forall t :: t in types ==> where[t] in store && IdColumn in store[where[t]].columns
  }

  /** The `UNION ALL` of one id query per type, in the given type order; the
      engine rejects the whole union if any table or column is missing. */
  function UnionIds(types: seq<string>, where: map<string, string>, store: map<string, Table>): (r: Result<seq<MapEntry>>)
    requires forall t :: t in types ==> t in where
    ensures r.Success? <==> Readable(types, where, store)
    ensures r.Failure? ==> r.error == EngineError
    ensures r.Success? ==> forall e :: e in r.value <==>
      exists t, row :: t in types && row in store[where[t]].rows && e == MapEntry(Cell(row, IdColumn), t)
  {
    if types == [] then Success([])
    else
      var name := where[types[0]];
      if name !in store || IdColumn !in store[name].columns then Failure(EngineError)
      else
        match UnionIds(types[1..], where, store)
        case Failure(e) => Failure(e)
        case Success(rest) =>
          var here := IdsOf(store[name].rows, types[0]);
          assert forall e :: e in here <==> exists row :: row in store[name].rows && e == MapEntry(Cell(row, IdColumn), types[0]) by {
            forall e | e in here ensures exists row :: row in store[name].rows && e == MapEntry(Cell(row, IdColumn), types[0]) {
              var i :| 0 <= i < |here| && here[i] == e;
              assert store[name].rows[i] in store[name].rows;
            }
            forall row | row in store[name].rows ensures MapEntry(Cell(row, IdColumn), types[0]) in here {
              var i :| 0 <= i < |store[name].rows| && store[name].rows[i] == row;
              assert here[i] == MapEntry(Cell(row, IdColumn), types[0]);
            }
          }
          Success(here + rest)
  }

  /** `nodes_map`: the union over the dictionary's types in insertion order. */
  function NodesMap(d: Dict<string, string>, store: map<string, Table>): (r: Result<seq<MapEntry>>)
    requires d.Valid()
    ensures r.Success? <==> Readable(d.keys, d.entries, store)
    ensures r.Success? ==> forall e :: e in r.value ==> e.nodeType in d.entries
  {
    UnionIds(d.keys, d.entries, store)
  }

  /** The types of the map entries whose id joins with `v`, in map order. */
  function TypesFor(v: Value, nm: seq<MapEntry>): (ts: seq<string>)
    ensures |ts| <= |nm|
    ensures forall t :: t in ts <==> exists e :: e in nm && SqlEq(v, e.id) && e.nodeType == t
  {
    if nm == [] then []
    else
      var rest := TypesFor(v, nm[1..]);
      assert forall e :: e in nm <==> e == nm[0] || e in nm[1..];
      if SqlEq(v, nm[0].id) then [nm[0].nodeType] + rest else rest
  }

  /** The join condition of `nodes_map` against value `v`. */
  function JoinsWith(v: Value): MapEntry -> bool {
    (e: MapEntry) => SqlEq(v, e.id)
  }

  function TypeOfEntry(e: MapEntry): string {
    e.nodeType
  }

  /** The types are one per matching map entry, in map order: an id present
      twice under one type yields that type twice. */
  lemma {:induction false} TypesForSelects(v: Value, nm: seq<MapEntry>) returns (idx: seq<nat>)
    ensures SelectedBy(nm, JoinsWith(v), TypeOfEntry, TypesFor(v, nm), idx)
    decreases |nm|
  {
    if nm == [] {
      idx := [];
      SelectNil(JoinsWith(v), TypeOfEntry);
    } else {
      var rest := TypesForSelects(v, nm[1..]);
      assert [nm[0]] + nm[1..] == nm;
      idx := SelectCons(nm[0], nm[1..], JoinsWith(v), TypeOfEntry, TypesFor(v, nm[1..]), rest);
    }
  }

  /** Every combination of one start type and one end type for row `r`. */
  function Combine(r: Row, starts: seq<string>, ends: seq<string>): (ts: seq<TypedRow>)
    ensures forall t :: t in ts <==> t.row == r && t.startType in starts && t.endType in ends
  {
    if starts == [] then []
    else
      var here := seq(|ends|, i requires 0 <= i < |ends| => TypedRow(r, starts[0], ends[i]));
      assert forall t :: t in here <==> t.row == r && t.startType == starts[0] && t.endType in ends by {
        forall t: TypedRow | t.row == r && t.startType == starts[0] && t.endType in ends ensures t in here {
          var i :| 0 <= i < |ends| && ends[i] == t.endType;
          assert here[i] == t;
        }
      }
      here + Combine(r, starts[1..], ends)
  }

  /** `relationships_typed`: `JOIN nodes_map s ON start = s.node_id
      JOIN nodes_map e ON end = e.node_id`. SQL promises no row order; the
      model fixes one, relationship by relationship, then start match by end
      match in `nodes_map` order. */
  function Join(rels: seq<Row>, nm: seq<MapEntry>): seq<TypedRow>
    decreases |rels|
  {
    if rels == [] then []
    else
      var r := rels[|rels| - 1];
      Join(rels[..|rels| - 1], nm) + Combine(r, TypesFor(Cell(r, StartColumn), nm), TypesFor(Cell(r, EndColumn), nm))
  }

  /** A typed row is produced exactly when its relationship row is present and
      both of its endpoint ids appear in the map under the recorded types. */
  lemma {:induction false} JoinMembership(rels: seq<Row>, nm: seq<MapEntry>, t: TypedRow)
    ensures t in Join(rels, nm) <==>
      && t.row in rels
      && MapEntry(Cell(t.row, StartColumn), t.startType) in nm && !Cell(t.row, StartColumn).Null?
      && MapEntry(Cell(t.row, EndColumn), t.endType) in nm && !Cell(t.row, EndColumn).Null?
    decreases |rels|
  {
    if rels != [] {
      var init := rels[..|rels| - 1];
      JoinMembership(init, nm, t);
      assert rels == init + [rels[|rels| - 1]];
    }
  }

  /** Row `t.row` of `rels` is typed (a, b): its non-NULL start id is the
      `node_id` of a row of the table of type `a`, and its end id one of `b`. */
  ghost predicate Resolves(rels: seq<Row>, d: Dict<string, string>, store: map<string, Table>, t: TypedRow) {
    && t.row in rels
    && !Cell(t.row, StartColumn).Null? && !Cell(t.row, EndColumn).Null?
    && t.startType in d.entries && d.entries[t.startType] in store
    && t.endType in d.entries && d.entries[t.endType] in store
    && (exists n :: n in store[d.entries[t.startType]].rows && Cell(n, IdColumn) == Cell(t.row, StartColumn))
    && (exists n :: n in store[d.entries[t.endType]].rows && Cell(n, IdColumn) == Cell(t.row, EndColumn))
  }

  /** The join against `nodes_map` types exactly the rows whose endpoints
      both resolve to node tables. */
  lemma JoinResolves(rels: seq<Row>, d: Dict<string, string>, store: map<string, Table>, t: TypedRow)
    requires d.Valid() && NodesMap(d, store).Success?
    ensures t in Join(rels, NodesMap(d, store).value) <==> Resolves(rels, d, store, t)
  {
    var nm := NodesMap(d, store).value;
    JoinMembership(rels, nm, t);
    if MapEntry(Cell(t.row, StartColumn), t.startType) in nm {
      var ty, n :| ty in d.keys && n in store[d.entries[ty]].rows
        && MapEntry(Cell(t.row, StartColumn), t.startType) == MapEntry(Cell(n, IdColumn), ty);
    }
    if MapEntry(Cell(t.row, EndColumn), t.endType) in nm {
      var ty, n :| ty in d.keys && n in store[d.entries[ty]].rows
        && MapEntry(Cell(t.row, EndColumn), t.endType) == MapEntry(Cell(n, IdColumn), ty);
    }
    if Resolves(rels, d, store, t) {
      var a :| a in store[d.entries[t.startType]].rows && Cell(a, IdColumn) == Cell(t.row, StartColumn);
      var b :| b in store[d.entries[t.endType]].rows && Cell(b, IdColumn) == Cell(t.row, EndColumn);
      assert t.startType in d.keys && t.endType in d.keys;
      assert MapEntry(Cell(a, IdColumn), t.startType) in nm;
      assert MapEntry(Cell(b, IdColumn), t.endType) in nm;
    }
  }

  /** Rows whose start or end id resolves to no type are dropped. */
  lemma JoinDropsUnresolved(rels: seq<Row>, nm: seq<MapEntry>, r: Row)
    requires (forall e :: e in nm ==> !SqlEq(Cell(r, StartColumn), e.id))
          || (forall e :: e in nm ==> !SqlEq(Cell(r, EndColumn), e.id))
    ensures forall t :: t in Join(rels, nm) ==> t.row != r
  {
    forall t | t in Join(rels, nm) ensures t.row != r {
      JoinMembership(rels, nm, t);
    }
  }

  /** Every resolved type is a type of the map. */
  lemma JoinTypesFromMap(rels: seq<Row>, nm: seq<MapEntry>, t: TypedRow)
    requires t in Join(rels, nm)
    ensures exists e :: e in nm && e.nodeType == t.startType
    ensures exists e :: e in nm && e.nodeType == t.endType
  {
    JoinMembership(rels, nm, t);
  }

  lemma {:induction false} CombineCount(r: Row, starts: seq<string>, ends: seq<string>)
    ensures |Combine(r, starts, ends)| == |starts| * |ends|
    decreases |starts|
  {
    if starts != [] {
      CombineCount(r, starts[1..], ends);
      calc {
        |Combine(r, starts, ends)|;
        |ends| + |starts[1..]| * |ends|;
        (1 + |starts[1..]|) * |ends|;
      }
    }
  }

  /** The join yields, for each relationship row, one row per pair of a
      matching start entry and a matching end entry. */
  lemma JoinOneCount(r: Row, nm: seq<MapEntry>)
    ensures |Join([r], nm)| == |TypesFor(Cell(r, StartColumn), nm)| * |TypesFor(Cell(r, EndColumn), nm)|
  {
    CombineCount(r, TypesFor(Cell(r, StartColumn), nm), TypesFor(Cell(r, EndColumn), nm));
  }

  /** Joining row by row: the result for `rels + more` extends the result for `rels`. */
  lemma {:induction false} JoinAppend(rels: seq<Row>, more: seq<Row>, nm: seq<MapEntry>)
    ensures Join(rels + more, nm) == Join(rels, nm) + Join(more, nm)
    decreases |more|
  {
    if more == [] {
      assert rels + more == rels;
    } else {
      var init := more[..|more| - 1];
      var r := more[|more| - 1];
      var last := Combine(r, TypesFor(Cell(r, StartColumn), nm), TypesFor(Cell(r, EndColumn), nm));
      assert (rels + more)[..|rels + more| - 1] == rels + init;
      assert (rels + more)[|rels + more| - 1] == r;
      assert Join(more, nm) == Join(init, nm) + last;
      calc {
        Join(rels + more, nm);
        Join(rels + init, nm) + last;
        { JoinAppend(rels, init, nm); }
        (Join(rels, nm) + Join(init, nm)) + last;
        Join(rels, nm) + (Join(init, nm) + last);
      }
    }
  }

  /** Enriched row count: the sum over relationship rows of start matches times end matches. */
  function ExpectedCount(rels: seq<Row>, nm: seq<MapEntry>): nat
  {
    if rels == [] then 0
    else |TypesFor(Cell(rels[0], StartColumn), nm)| * |TypesFor(Cell(rels[0], EndColumn), nm)|
         + ExpectedCount(rels[1..], nm)
  }

  lemma {:induction false} JoinCount(rels: seq<Row>, nm: seq<MapEntry>)
    ensures |Join(rels, nm)| == ExpectedCount(rels, nm)
    decreases |rels|
  {
    if rels != [] {
      assert rels == [rels[0]] + rels[1..];
      JoinAppend([rels[0]], rels[1..], nm);
      JoinOneCount(rels[0], nm);
      JoinCount(rels[1..], nm);
    }
  }
}

=== FILE: loader.dfy ===
/** Schema synthesis at load time: load every configured table, build the
    label-to-table map, type the relationships, partition them by ordered
    type pair and declare one vertex table per label and one edge table per
    partition. */
module Loader {
  import opened Outcomes
  import opened Tables
  import opened Dicts
  import opened Config
  import opened Naming
  import opened Enrichment

  // ---------------------------------------------------------------- step 1

  /** The last source that creates table `tb` (a later `CREATE OR REPLACE` wins). */
  function LastWithTable(cfg: seq<Source>, tb: string): Option<Source>
    decreases |cfg|
  {
    if cfg == [] then None
    else if cfg[|cfg| - 1].table == tb then Some(cfg[|cfg| - 1])
    else LastWithTable(cfg[..|cfg| - 1], tb)
  }

  /** `CREATE OR REPLACE TABLE {table} AS SELECT * FROM '{path}'` for each
      source in order; reading a missing file is an engine failure. */
  function LoadTables(cfg: seq<Source>, files: map<string, Table>): (r: Result<map<string, Table>>)
    ensures r.Success? <==> forall i :: 0 <= i < |cfg| ==> cfg[i].path in files
    ensures r.Failure? ==> r.error == EngineError
    ensures r.Success? ==> r.value.Keys == set i | 0 <= i < |cfg| :: cfg[i].table
    ensures r.Success? ==> forall tb :: tb in r.value ==>
      && LastWithTable(cfg, tb).Some?
      && LastWithTable(cfg, tb).value.path in files
      && r.value[tb] == files[LastWithTable(cfg, tb).value.path]
    decreases |cfg|
  {
    if cfg == [] then Success(map[])
    else
      var init := cfg[..|cfg| - 1];
      var s := cfg[|cfg| - 1];
      assert forall i :: 0 <= i < |init| ==> init[i] == cfg[i];
      match LoadTables(init, files)
      case Failure(e) => Failure(e)
      case Success(t) =>
        if s.path !in files then Failure(EngineError)
        else
          assert (set i | 0 <= i < |cfg| :: cfg[i].table) == (set i | 0 <= i < |init| :: init[i].table) + {s.table};
          Success(t[s.table := files[s.path]])
  }

  /** `if label: node_labels[label] = table`. */
  function AddLabel(d: Dict<string, string>, s: Source): (d': Dict<string, string>)
    requires d.Valid()
    ensures d'.Valid()
  {
    if Truthy(s.nodeLabel) then d.Put(s.nodeLabel.value, s.table) else d
  }

  /** `node_labels`, built over the sources in order. */
  function NodeLabels(cfg: seq<Source>): (d: Dict<string, string>)
    ensures d.Valid()
    decreases |cfg|
  {
    if cfg == [] then Empty() else AddLabel(NodeLabels(cfg[..|cfg| - 1]), cfg[|cfg| - 1])
  }

  /** Reference reading of the label map: the table of the last source that
      carries label `l`, if any does. */
  function LastLabelled(cfg: seq<Source>, l: string): Option<string>
    decreases |cfg|
  {
    if cfg == [] then None
    else if l != "" && cfg[|cfg| - 1].nodeLabel == Some(l) then Some(cfg[|cfg| - 1].table)
    else LastLabelled(cfg[..|cfg| - 1], l)
  }

  /** Each labelled source maps its label to its table, a later source with the
      same label overwrites the earlier one, and unlabelled sources add nothing. */
  lemma {:induction false} NodeLabelsLastWins(cfg: seq<Source>, l: string)
    ensures LastLabelled(cfg, l) == if l in NodeLabels(cfg).entries then Some(NodeLabels(cfg).entries[l]) else None
    decreases |cfg|
  {
    if cfg != [] {
      NodeLabelsLastWins(cfg[..|cfg| - 1], l);
    }
  }

  // ---------------------------------------------------------------- step 4

  function PairOf(t: TypedRow): Pair {
    Pair(t.startType, t.endType)
  }

  ghost predicate Distinct<T>(xs: seq<T>) {
    forall i, j :: 0 <= i < j < |xs| ==> xs[i] != xs[j]
  }

  /** `SELECT DISTINCT start_label, end_label FROM relationships_typed`.
      SQL promises no order for the result; the model fixes one, the order of
      first occurrence, and the order of the edge tables follows from it. */
  function DistinctPairs(typed: seq<TypedRow>): (ps: seq<Pair>)
    ensures Distinct(ps)
    ensures forall p :: p in ps <==> exists t :: t in typed && PairOf(t) == p
    decreases |typed|
  {
    if typed == [] then []
    else
      var init := typed[..|typed| - 1];
      var ps := DistinctPairs(init);
      var p := PairOf(typed[|typed| - 1]);
      assert forall t :: t in typed <==> t in init || t == typed[|typed| - 1] by {
        assert typed == init + [typed[|typed| - 1]];
      }
      if p in ps then ps else ps + [p]
  }

  /** `CREATE TABLE rel_{s}_{e} AS SELECT * FROM relationships_typed
      WHERE start_label = s AND end_label = e`. */
  function Partition(typed: seq<TypedRow>, p: Pair): (part: seq<TypedRow>)
    ensures |part| <= |typed|
    ensures forall t :: t in part <==> t in typed && PairOf(t) == p
    decreases |typed|
  {
    if typed == [] then []
    else (if PairOf(typed[0]) == p then [typed[0]] else []) + Partition(typed[1..], p)
  }

  /** A row typed (a, b) with a != b never lands in partition (b, a). */
  lemma PartitionNotReversed(typed: seq<TypedRow>, t: TypedRow)
    requires t.startType != t.endType
    ensures t !in Partition(typed, Pair(t.endType, t.startType))
  {
  }

  datatype VertexDef = VertexDef(table: string, vertexLabel: string)

  datatype EdgeDef = EdgeDef(
    pair: Pair,
    name: string,
    sourceTable: string,
    destTable: string,
    edgeLabel: string)

  /** `{table} LABEL {label}` for each label, in label-map order. */
  function VertexDefs(d: Dict<string, string>): (vs: seq<VertexDef>)
    requires d.Valid()
    ensures |vs| == |d.keys|
    ensures forall i :: 0 <= i < |vs| ==> vs[i] == VertexDef(d.entries[d.keys[i]], d.keys[i])
  {
    seq(|d.keys|, i requires 0 <= i < |d.keys| => VertexDef(d.entries[d.keys[i]], d.keys[i]))
  }

  /** One edge table per pair: the partition table of its name, with source
      and destination keys bound to the vertex tables of the pair's labels. */
  function EdgeDefs(ps: seq<Pair>, tables: map<string, string>): (es: seq<EdgeDef>)
    requires forall p :: p in ps ==> p.start in tables && p.end in tables
    ensures |es| == |ps|
    ensures forall i :: 0 <= i < |ps| ==> es[i].pair == ps[i]
    ensures forall i :: 0 <= i < |ps| ==> es[i].name == PartitionName(ps[i]) && es[i].edgeLabel == EdgeLabel(ps[i])
    ensures forall i :: 0 <= i < |ps| ==>
      es[i].sourceTable == tables[ps[i].start] && es[i].destTable == tables[ps[i].end]
  {
    if ps == [] then []
    else
      var p := ps[0];
      [EdgeDef(p, PartitionName(p), tables[p.start], tables[p.end], EdgeLabel(p))] + EdgeDefs(ps[1..], tables)
  }

  /** The pair whose partition was written last under table name `name`. */
  function LastNamed(ps: seq<Pair>, name: string): Option<Pair>
    decreases |ps|
  {
    if ps == [] then None
    else if PartitionName(ps[|ps| - 1]) == name then Some(ps[|ps| - 1])
    else LastNamed(ps[..|ps| - 1], name)
  }

  /** The `rel_` tables left behind by the loop over `ps`: `CREATE OR REPLACE
      TABLE rel_{s}_{e}` runs once per pair, so a pair replaces the table of
      an earlier pair with the same name. */
  function PartitionTables(ps: seq<Pair>, typed: seq<TypedRow>): (store: map<string, seq<TypedRow>>)
    ensures forall n :: n in store <==> LastNamed(ps, n).Some?
    ensures forall n :: n in store ==> store[n] == Partition(typed, LastNamed(ps, n).value)
    decreases |ps|
  {
    if ps == [] then map[]
    else
      var p := ps[|ps| - 1];
      PartitionTables(ps[..|ps| - 1], typed)[PartitionName(p) := Partition(typed, p)]
  }

  /** The table `rel_{s}_{e}` of the pair at `i` is written by no other pair. */
  ghost predicate NameUnique(ps: seq<Pair>, i: int)
    requires 0 <= i < |ps|
  {
    forall j :: 0 <= j < |ps| && j != i ==> PartitionName(ps[j]) != PartitionName(ps[i])
  }

  ghost predicate UniqueNames(ps: seq<Pair>) {
    forall i, j :: 0 <= i < j < |ps| ==> PartitionName(ps[i]) != PartitionName(ps[j])
  }

  /** The last pair written under a name is the last one in `ps` with that name. */
  lemma {:induction false} LastNamedIndex(ps: seq<Pair>, n: string)
    ensures LastNamed(ps, n).None? <==> forall k :: 0 <= k < |ps| ==> PartitionName(ps[k]) != n
    ensures LastNamed(ps, n).Some? ==>
      exists k :: (&& 0 <= k < |ps| && ps[k] == LastNamed(ps, n).value && PartitionName(ps[k]) == n
                   && forall j :: k < j < |ps| ==> PartitionName(ps[j]) != n)
    decreases |ps|
  {
    if ps != [] {
      var init := ps[..|ps| - 1];
      LastNamedIndex(init, n);
      assert forall k :: 0 <= k < |init| ==> init[k] == ps[k];
    }
  }

  /** A partition table written by one pair only holds exactly that pair's rows. */
  lemma UniqueNameKeepsPartition(ps: seq<Pair>, typed: seq<TypedRow>, i: int)
    requires 0 <= i < |ps| && NameUnique(ps, i)
    ensures PartitionName(ps[i]) in PartitionTables(ps, typed)
    ensures PartitionTables(ps, typed)[PartitionName(ps[i])] == Partition(typed, ps[i])
  {
    LastNamedIndex(ps, PartitionName(ps[i]));
  }

  /** When two distinct pairs share a table name, the earlier pair's rows end
      up in no partition table at all: the later `CREATE OR REPLACE` discards
      them. */
  lemma CollisionLosesRows(ps: seq<Pair>, typed: seq<TypedRow>, i: int, j: int)
    requires Distinct(ps)
    requires 0 <= i < j < |ps| && PartitionName(ps[i]) == PartitionName(ps[j])
    ensures forall n, t :: n in PartitionTables(ps, typed) && t in PartitionTables(ps, typed)[n] ==> PairOf(t) != ps[i]
  {
    var store := PartitionTables(ps, typed);
    forall n, t | n in store && t in store[n] ensures PairOf(t) != ps[i] {
      LastNamedIndex(ps, n);
      var k :| 0 <= k < |ps| && ps[k] == LastNamed(ps, n).value
        && PartitionName(ps[k]) == n && forall m :: k < m < |ps| ==> PartitionName(ps[m]) != n;
      assert ps[k] != ps[i];
    }
  }

  /** Pairs whose start labels contain no `_` get distinct table names. */
  lemma UnderscoreFreeNamesUnique(ps: seq<Pair>)
    requires Distinct(ps)
    requires forall k :: 0 <= k < |ps| ==> '_' !in ps[k].start
    ensures UniqueNames(ps)
  {
    forall i, j | 0 <= i < j < |ps| ensures PartitionName(ps[i]) != PartitionName(ps[j]) {
      if PartitionName(ps[i]) == PartitionName(ps[j]) {
        PartitionNameInjective(ps[i], ps[j]);
      }
    }
  }

  /** The rows of the tables of all edge definitions, one after the other. */
  function AllRows(es: seq<EdgeDef>, store: map<string, seq<TypedRow>>): seq<TypedRow>
    requires forall e :: e in es ==> e.name in store
  {
    if es == [] then [] else store[es[0].name] + AllRows(es[1..], store)
  }

  // ---------------------------------------------------------------- load_data

  datatype Schema = Schema(
    labels: Dict<string, string>,
    typed: seq<TypedRow>,
    vertices: seq<VertexDef>,
    edges: seq<EdgeDef>,
    partitions: map<string, seq<TypedRow>>)

  /** The relationships table can be joined: it exists with both endpoint columns. */
  predicate Joinable(tables: map<string, Table>) {
    RelationshipsTable in tables
    && StartColumn in tables[RelationshipsTable].columns
    && EndColumn in tables[RelationshipsTable].columns
  }

  /** Every type the map can resolve to is a label of the label map. */
  lemma TypedLabelsAreLabels(d: Dict<string, string>, rels: seq<Row>, nm: seq<MapEntry>)
    requires forall e :: e in nm ==> e.nodeType in d.entries
    ensures forall p :: p in DistinctPairs(Join(rels, nm)) ==> p.start in d.entries && p.end in d.entries
  {
    var typed := Join(rels, nm);
    forall p | p in DistinctPairs(typed) ensures p.start in d.entries && p.end in d.entries {
      var t :| t in typed && PairOf(t) == p;
      JoinTypesFromMap(rels, nm, t);
    }
  }

  /** Every edge definition's table exists after the loop. */
  lemma EdgeTablesExist(ps: seq<Pair>, typed: seq<TypedRow>, tables: map<string, string>)
    requires forall p :: p in ps ==> p.start in tables && p.end in tables
    ensures forall i :: 0 <= i < |EdgeDefs(ps, tables)| ==> EdgeDefs(ps, tables)[i].name in PartitionTables(ps, typed)
  {
    forall i | 0 <= i < |ps| ensures PartitionName(ps[i]) in PartitionTables(ps, typed) {
      LastNamedIndex(ps, PartitionName(ps[i]));
    }
  }

  /** Step 4 from the label map and the typed rows: vertex definitions, one
      edge definition per distinct pair and the partition tables. */
  function Synthesize(labels: Dict<string, string>, typed: seq<TypedRow>): (s: Schema)
    requires labels.Valid()
    requires forall t :: t in typed ==> t.startType in labels.entries && t.endType in labels.entries
    ensures s.labels == labels && s.typed == typed
    ensures forall i :: 0 <= i < |s.edges| ==>
      var e := s.edges[i];
      && e.name == PartitionName(e.pair)
      && e.edgeLabel == EdgeLabel(e.pair)
      && e.pair.start in labels.entries && e.pair.end in labels.entries
      && e.sourceTable == labels.entries[e.pair.start]
      && e.destTable == labels.entries[e.pair.end]
      && e.name in s.partitions
  {
    var pairs := DistinctPairs(typed);
    assert forall p :: p in pairs ==> p.start in labels.entries && p.end in labels.entries by {
      forall p | p in pairs ensures p.start in labels.entries && p.end in labels.entries {
        var t :| t in typed && PairOf(t) == p;
      }
    }
    EdgeTablesExist(pairs, typed, labels.entries);
    Schema(labels, typed, VertexDefs(labels), EdgeDefs(pairs, labels.entries), PartitionTables(pairs, typed))
  }

  /** `load_data` steps 1 to 4, up to the property-graph declaration. */
  function LoadData(cfg: seq<Source>, files: map<string, Table>): (r: Result<Schema>)
    ensures r.Failure? ==> r.error == EngineError
    ensures r.Success? <==>
      && (forall i :: 0 <= i < |cfg| ==> cfg[i].path in files)
      && NodeLabels(cfg).keys != []
      && LoadTables(cfg, files).Success?
      && Readable(NodeLabels(cfg).keys, NodeLabels(cfg).entries, LoadTables(cfg, files).value)
      && Joinable(LoadTables(cfg, files).value)
    ensures r.Success? ==> r.value.labels == NodeLabels(cfg)
    ensures r.Success? ==> forall t :: t in r.value.typed ==>
      t.startType in r.value.labels.entries && t.endType in r.value.labels.entries
    ensures r.Success? ==> r.value.vertices == VertexDefs(r.value.labels)
    ensures r.Success? ==> forall i :: 0 <= i < |r.value.edges| ==>
      var e := r.value.edges[i];
      && e.name == PartitionName(e.pair)
      && e.edgeLabel == EdgeLabel(e.pair)
      && e.pair.start in r.value.labels.entries && e.pair.end in r.value.labels.entries
      && e.sourceTable == r.value.labels.entries[e.pair.start]
      && e.destTable == r.value.labels.entries[e.pair.end]
      && e.name in r.value.partitions
  {
    var tables :- LoadTables(cfg, files);
    var labels := NodeLabels(cfg);
    if labels.keys == [] then Failure(EngineError)
    else
      var nm :- NodesMap(labels, tables);
      if !Joinable(tables) then Failure(EngineError)
      else
        var typed := Join(tables[RelationshipsTable].rows, nm);
        TypedLabelsAreLabels(labels, tables[RelationshipsTable].rows, nm);
        assert forall t :: t in typed ==> t.startType in labels.entries && t.endType in labels.entries by {
          forall t | t in typed ensures t.startType in labels.entries && t.endType in labels.entries {
            assert PairOf(t) in DistinctPairs(typed);
          }
        }
        Success(Synthesize(labels, typed))
  }

  // ---------------------------------------------------------------- partition coverage

  /** The typed rows whose pair lies in `ps`, in order. */
  function InPairs(typed: seq<TypedRow>, ps: seq<Pair>): seq<TypedRow> {
    if typed == [] then []
    else (if PairOf(typed[0]) in ps then [typed[0]] else []) + InPairs(typed[1..], ps)
  }

  lemma {:induction false} InPairsSplit(typed: seq<TypedRow>, ps: seq<Pair>, p: Pair)
    requires p !in ps
    ensures multiset(InPairs(typed, [p] + ps)) == multiset(InPairs(typed, ps)) + multiset(Partition(typed, p))
    decreases |typed|
  {
    if typed != [] {
      InPairsSplit(typed[1..], ps, p);
    }
  }

  lemma {:induction false} InPairsAll(typed: seq<TypedRow>, ps: seq<Pair>)
    requires forall t :: t in typed ==> PairOf(t) in ps
    ensures InPairs(typed, ps) == typed
    decreases |typed|
  {
    if typed != [] {
      assert typed[0] in typed;
      assert forall t :: t in typed[1..] ==> t in typed;
      InPairsAll(typed[1..], ps);
      assert [typed[0]] + typed[1..] == typed;
    }
  }

  /** The partitions of `ps`, one after the other. */
  function PartRows(ps: seq<Pair>, typed: seq<TypedRow>): seq<TypedRow> {
    if ps == [] then [] else Partition(typed, ps[0]) + PartRows(ps[1..], typed)
  }

  /** With every pair's table holding its own partition, the edge tables
      hold the partitions one after the other. */
  lemma {:induction false} AllRowsAreParts(ps: seq<Pair>, typed: seq<TypedRow>, tables: map<string, string>, store: map<string, seq<TypedRow>>)
    requires forall p :: p in ps ==> p.start in tables && p.end in tables
    requires forall p :: p in ps ==> PartitionName(p) in store && store[PartitionName(p)] == Partition(typed, p)
    ensures forall e :: e in EdgeDefs(ps, tables) ==> e.name in store
    ensures AllRows(EdgeDefs(ps, tables), store) == PartRows(ps, typed)
    decreases |ps|
  {
    var es := EdgeDefs(ps, tables);
    forall e | e in es ensures e.name in store {
      var k :| 0 <= k < |es| && es[k] == e;
    }
    if ps != [] {
      assert forall p :: p in ps[1..] ==> p in ps;
      AllRowsAreParts(ps[1..], typed, tables, store);
      assert es[1..] == EdgeDefs(ps[1..], tables);
    }
  }

  lemma {:induction false} PartRowsOfPairs(ps: seq<Pair>, typed: seq<TypedRow>)
    requires Distinct(ps)
    ensures multiset(PartRows(ps, typed)) == multiset(InPairs(typed, ps))
    decreases |ps|
  {
    if ps == [] {
      InPairsNone(typed);
    } else {
      var rest := ps[1..];
      DistinctTail(ps);
      PartRowsOfPairs(rest, typed);
      assert ps == [ps[0]] + rest;
      InPairsSplit(typed, rest, ps[0]);
    }
  }

  /** The tail of a duplicate-free sequence is duplicate-free and misses its head. */
  lemma DistinctTail(ps: seq<Pair>)
    requires Distinct(ps) && ps != []
    ensures Distinct(ps[1..]) && ps[0] !in ps[1..]
  {
    var rest := ps[1..];
    forall i, j | 0 <= i < j < |rest| ensures rest[i] != rest[j] {
      assert rest[i] == ps[i + 1] && rest[j] == ps[j + 1];
    }
    forall i | 0 <= i < |rest| ensures rest[i] != ps[0] {
      assert rest[i] == ps[i + 1];
    }
  }

  lemma {:induction false} InPairsNone(typed: seq<TypedRow>)
    ensures InPairs(typed, []) == []
    decreases |typed|
  {
    if typed != [] {
      InPairsNone(typed[1..]);
    }
  }

  /** When no two pairs share a table name, the partition tables together
      hold every typed row exactly as often as the typed table does. */
  lemma PartitionsCoverTyped(typed: seq<TypedRow>, tables: map<string, string>)
    requires forall p :: p in DistinctPairs(typed) ==> p.start in tables && p.end in tables
    requires UniqueNames(DistinctPairs(typed))
    ensures forall e :: e in EdgeDefs(DistinctPairs(typed), tables) ==> e.name in PartitionTables(DistinctPairs(typed), typed)
    ensures multiset(AllRows(EdgeDefs(DistinctPairs(typed), tables), PartitionTables(DistinctPairs(typed), typed))) == multiset(typed)
  {
    var ps := DistinctPairs(typed);
    var store := PartitionTables(ps, typed);
    forall p | p in ps ensures PartitionName(p) in store && store[PartitionName(p)] == Partition(typed, p) {
      var k :| 0 <= k < |ps| && ps[k] == p;
      UniqueNameKeepsPartition(ps, typed, k);
    }
    AllRowsAreParts(ps, typed, tables, store);
    PartRowsOfPairs(ps, typed);
    InPairsAll(typed, ps);
  }

  function EdgePairs(es: seq<EdgeDef>): (ps: seq<Pair>)
    ensures |ps| == |es| && forall i :: 0 <= i < |es| ==> ps[i] == es[i].pair
  {
    seq(|es|, i requires 0 <= i < |es| => es[i].pair)
  }

  /** The labels' tables are keyed by the labels of the typed rows. */
  ghost predicate LabelsCover(labels: Dict<string, string>, typed: seq<TypedRow>) {
    && labels.Valid()
    && forall t :: t in typed ==> t.startType in labels.entries && t.endType in labels.entries
  }

  /** A loaded schema is the synthesis of its own labels and typed rows. */
  lemma LoadDataSynthesizes(cfg: seq<Source>, files: map<string, Table>)
    requires LoadData(cfg, files).Success?
    ensures var s := LoadData(cfg, files).value;
      LabelsCover(s.labels, s.typed) && s == Synthesize(s.labels, s.typed)
  {
  }

  /** The edge definitions follow the pairs one to one. */
  lemma EdgeDefsPairs(ps: seq<Pair>, tables: map<string, string>)
    requires forall p :: p in ps ==> p.start in tables && p.end in tables
    ensures EdgePairs(EdgeDefs(ps, tables)) == ps
  {
  }

  /** A partition table exists for the name of every edge definition, and
      for no other name. */
  lemma PartitionTablesNamed(ps: seq<Pair>, typed: seq<TypedRow>, tables: map<string, string>, n: string)
    requires forall p :: p in ps ==> p.start in tables && p.end in tables
    ensures n in PartitionTables(ps, typed) <==> exists i :: 0 <= i < |EdgeDefs(ps, tables)| && EdgeDefs(ps, tables)[i].name == n
  {
    LastNamedIndex(ps, n);
  }

  /** The table of a pair that shares its name with no other pair holds
      exactly that pair's typed rows. */
  lemma UniqueNameRows(ps: seq<Pair>, typed: seq<TypedRow>, i: int, t: TypedRow)
    requires 0 <= i < |ps| && NameUnique(ps, i)
    ensures PartitionName(ps[i]) in PartitionTables(ps, typed)
    ensures t in PartitionTables(ps, typed)[PartitionName(ps[i])] <==> t in typed && PairOf(t) == ps[i]
  {
    UniqueNameKeepsPartition(ps, typed, i);
  }

  /** Labels free of `_` give distinct partition names. */
  lemma UnderscoreFreeLabels(labels: Dict<string, string>, typed: seq<TypedRow>)
    requires forall t :: t in typed ==> t.startType in labels.entries && t.endType in labels.entries
    requires forall l :: l in labels.entries ==> '_' !in l
    ensures UniqueNames(DistinctPairs(typed))
  {
    var ps := DistinctPairs(typed);
    forall k | 0 <= k < |ps| ensures '_' !in ps[k].start {
      assert ps[k] in ps;
      var t :| t in typed && PairOf(t) == ps[k];
    }
    UnderscoreFreeNamesUnique(ps);
  }

  /** The partition structure of every loaded schema. */
  /** What the synthesized schema promises about its edge tables: one edge
      definition per distinct pair, a table for exactly their names, a table
      written by one pair only holding exactly that pair's rows, labels free
      of `_` keeping the names apart, and apart names keeping every row. */
  ghost predicate PartitionsFaithful(s: Schema) {
    && EdgePairs(s.edges) == DistinctPairs(s.typed)
    && (forall n :: n in s.partitions <==> exists i :: 0 <= i < |s.edges| && s.edges[i].name == n)
    && (forall i, t :: 0 <= i < |s.edges| && NameUnique(EdgePairs(s.edges), i) ==>
          (t in s.partitions[s.edges[i].name] <==> t in s.typed && PairOf(t) == s.edges[i].pair))
    && ((forall l :: l in s.labels.entries ==> '_' !in l) ==> UniqueNames(EdgePairs(s.edges)))
    && (UniqueNames(EdgePairs(s.edges)) ==> multiset(AllRows(s.edges, s.partitions)) == multiset(s.typed))
  }

  lemma SchemaPartitions(cfg: seq<Source>, files: map<string, Table>)
    requires LoadData(cfg, files).Success?
    ensures PartitionsFaithful(LoadData(cfg, files).value)
  {
    var s := LoadData(cfg, files).value;
    LoadDataSynthesizes(cfg, files);
    SynthesizedFaithful(s.labels, s.typed);
  }

  lemma SynthesizedFaithful(labels: Dict<string, string>, typed: seq<TypedRow>)
    requires LabelsCover(labels, typed)
    ensures PartitionsFaithful(Synthesize(labels, typed))
  {
    SynthesizedTables(labels, typed);
    SynthesizedRows(labels, typed);
    SynthesizedCoverage(labels, typed);
  }

  lemma PairsCovered(labels: Dict<string, string>, typed: seq<TypedRow>)
    requires LabelsCover(labels, typed)
    ensures forall p :: p in DistinctPairs(typed) ==> p.start in labels.entries && p.end in labels.entries
  {
    forall p | p in DistinctPairs(typed) ensures p.start in labels.entries && p.end in labels.entries {
      var t :| t in typed && PairOf(t) == p;
    }
  }

  /** One edge definition per distinct pair, and a table for exactly their names. */
  lemma SynthesizedTables(labels: Dict<string, string>, typed: seq<TypedRow>)
    requires LabelsCover(labels, typed)
    ensures var s := Synthesize(labels, typed);
      && EdgePairs(s.edges) == DistinctPairs(typed)
      && (forall n :: n in s.partitions <==> exists i :: 0 <= i < |s.edges| && s.edges[i].name == n)
  {
    var ps := DistinctPairs(typed);
    PairsCovered(labels, typed);
    EdgeDefsPairs(ps, labels.entries);
    forall n ensures n in PartitionTables(ps, typed) <==> exists i :: 0 <= i < |EdgeDefs(ps, labels.entries)| && EdgeDefs(ps, labels.entries)[i].name == n {
      PartitionTablesNamed(ps, typed, labels.entries, n);
    }
  }

  /** A table written by one pair only holds exactly that pair's rows. */
  lemma SynthesizedRows(labels: Dict<string, string>, typed: seq<TypedRow>)
    requires LabelsCover(labels, typed)
    ensures var s := Synthesize(labels, typed);
      forall i, t :: 0 <= i < |s.edges| && NameUnique(EdgePairs(s.edges), i) ==>
        (t in s.partitions[s.edges[i].name] <==> t in typed && PairOf(t) == s.edges[i].pair)
  {
    var ps := DistinctPairs(typed);
    PairsCovered(labels, typed);
    EdgeDefsPairs(ps, labels.entries);
    var es := EdgeDefs(ps, labels.entries);
    forall i, t | 0 <= i < |es| && NameUnique(ps, i)
      ensures PartitionName(ps[i]) in PartitionTables(ps, typed)
      ensures t in PartitionTables(ps, typed)[PartitionName(ps[i])] <==> t in typed && PairOf(t) == ps[i]
    {
      UniqueNameRows(ps, typed, i, t);
    }
  }

  /** Labels free of `_` keep the names apart, and apart names keep every row. */
  lemma SynthesizedCoverage(labels: Dict<string, string>, typed: seq<TypedRow>)
    requires LabelsCover(labels, typed)
    ensures var s := Synthesize(labels, typed);
      && ((forall l :: l in labels.entries ==> '_' !in l) ==> UniqueNames(EdgePairs(s.edges)))
      && (UniqueNames(EdgePairs(s.edges)) ==> multiset(AllRows(s.edges, s.partitions)) == multiset(typed))
  {
    var ps := DistinctPairs(typed);
    PairsCovered(labels, typed);
    EdgeDefsPairs(ps, labels.entries);
    if forall l :: l in labels.entries ==> '_' !in l {
      UnderscoreFreeLabels(labels, typed);
    }
    if UniqueNames(ps) {
      PartitionsCoverTyped(typed, labels.entries);
    }
  }

  /** The typed rows of the `i`-th edge definition's pair exist, yet no
      partition table holds any of them. */
  ghost predicate LosesRows(s: Schema, i: int)
    requires 0 <= i < |s.edges|
  {
    && (exists t :: t in s.typed && PairOf(t) == s.edges[i].pair)
    && forall n, t :: n in s.partitions && t in s.partitions[n] ==> PairOf(t) != s.edges[i].pair
  }

  /** Two label pairs sharing a table name lose the earlier pair's rows. */
  lemma SchemaCollision(cfg: seq<Source>, files: map<string, Table>, i: int, j: int)
    requires LoadData(cfg, files).Success?
    requires 0 <= i < j < |LoadData(cfg, files).value.edges|
    requires LoadData(cfg, files).value.edges[i].name == LoadData(cfg, files).value.edges[j].name
    ensures LosesRows(LoadData(cfg, files).value, i)
  {
    var s := LoadData(cfg, files).value;
    LoadDataSynthesizes(cfg, files);
    SynthesizedCollision(s.labels, s.typed, i, j);
  }

  lemma SynthesizedCollision(labels: Dict<string, string>, typed: seq<TypedRow>, i: int, j: int)
    requires LabelsCover(labels, typed)
    requires 0 <= i < j < |Synthesize(labels, typed).edges|
    requires Synthesize(labels, typed).edges[i].name == Synthesize(labels, typed).edges[j].name
    ensures LosesRows(Synthesize(labels, typed), i)
  {
    var ps := DistinctPairs(typed);
    PairsCovered(labels, typed);
    EdgeDefsPairs(ps, labels.entries);
    assert ps[i] in ps;
    CollisionLosesRows(ps, typed, i, j);
  }

  /** `relationships_typed` holds exactly the relationship rows whose two
      endpoints resolve to labelled node tables, under those labels. */
  lemma LoadDataTypedRows(cfg: seq<Source>, files: map<string, Table>, t: TypedRow)
    requires LoadData(cfg, files).Success?
    ensures RelationshipsTable in LoadTables(cfg, files).value
    ensures t in LoadData(cfg, files).value.typed <==>
      Resolves(LoadTables(cfg, files).value[RelationshipsTable].rows, NodeLabels(cfg), LoadTables(cfg, files).value, t)
  {
    var tables := LoadTables(cfg, files).value;
    var labels := NodeLabels(cfg);
    assert LoadData(cfg, files).value.typed == Join(tables[RelationshipsTable].rows, NodesMap(labels, tables).value);
    JoinResolves(tables[RelationshipsTable].rows, labels, tables, t);
  }
}

=== FILE: naming.dfy ===
/** The naming convention that ties ingestion to the request handlers: the
    loader names the partition of pair (s, e) `rel_{s}_{e}` and its edge label
    `related_to_{s}_{e}`; the neighbour handler recovers (s, e) from a table
    name by searching for the leftmost `_` whose two halves are known types. */
module Naming {
  import opened Outcomes

  /** An ordered (start type, end type) pair. */
  datatype Pair = Pair(start: string, end: string)

  const RelPrefix := "rel_"

  function PartitionName(p: Pair): string {
    RelPrefix + p.start + "_" + p.end
  }

  function EdgeLabel(p: Pair): string {
    "related_to_" + p.start + "_" + p.end
  }

  /** Position `i` of `content` splits it into two known types. */
  predicate SplitsAt(content: string, types: set<string>, i: int) {
    1 <= i < |content| && content[i] == '_' && content[..i] in types && content[i + 1..] in types
  }

  /** The leftmost split at or after position `i`. */
  function SplitFrom(content: string, types: set<string>, i: nat): (r: Option<Pair>)
    ensures r.None? ==> forall k :: i <= k ==> !SplitsAt(content, types, k)
    ensures r.Some? ==> exists k :: i <= k && SplitsAt(content, types, k)
                                 && r.value == Pair(content[..k], content[k + 1..])
                                 && forall j :: i <= j < k ==> !SplitsAt(content, types, j)
    decreases |content| - i
  {
    if i >= |content| then None
    else if SplitsAt(content, types, i) then Some(Pair(content[..i], content[i + 1..]))
    else SplitFrom(content, types, i + 1)
  }

  /** The type pair a table name denotes, if any: only `rel_` names are
      considered, and the first split position is 1. */
  function ParseRelName(name: string, types: set<string>): Option<Pair> {
    if |name| >= |RelPrefix| && name[..|RelPrefix|] == RelPrefix
    then SplitFrom(name[|RelPrefix|..], types, 1)
    else None
  }

  lemma PartitionNameParts(p: Pair)
    ensures PartitionName(p)[..|RelPrefix|] == RelPrefix
    ensures PartitionName(p)[|RelPrefix|..] == p.start + "_" + p.end
  {
  }

  /** A parsed name is the partition name of two known types. */
  lemma ParseSound(name: string, types: set<string>)
    requires ParseRelName(name, types).Some?
    ensures var p := ParseRelName(name, types).value;
      name == PartitionName(p) && p.start in types && p.end in types && p.start != ""
  {
    var content := name[|RelPrefix|..];
    var k :| 1 <= k && SplitsAt(content, types, k)
          && ParseRelName(name, types).value == Pair(content[..k], content[k + 1..]);
    assert content == content[..k] + "_" + content[k + 1..];
    assert name == name[..|RelPrefix|] + content;
  }

  /** A `rel_` name is skipped exactly when no two known types name it. */
  lemma ParseNoneIff(name: string, types: set<string>)
    requires |name| >= |RelPrefix| && name[..|RelPrefix|] == RelPrefix
    ensures ParseRelName(name, types).None? <==>
      forall p: Pair :: p.start in types && p.end in types && p.start != "" ==> name != PartitionName(p)
  {
    var content := name[|RelPrefix|..];
    if ParseRelName(name, types).None? {
      forall p: Pair | p.start in types && p.end in types && p.start != ""
        ensures name != PartitionName(p)
      {
        if name == PartitionName(p) {
          PartitionNameParts(p);
          var k := |p.start|;
          assert content[..k] == p.start && content[k] == '_' && content[k + 1..] == p.end;
          assert SplitsAt(content, types, k);
        }
      }
    } else {
      ParseSound(name, types);
    }
  }

  /** Round trip: for known types whose start contains no `_`, parsing the
      partition name gives the pair back. */
  lemma {:induction false} ParsePartitionName(p: Pair, types: set<string>)
    requires p.start in types && p.end in types && p.start != ""
    requires '_' !in p.start
    ensures ParseRelName(PartitionName(p), types) == Some(p)
  {
    var name := PartitionName(p);
    PartitionNameParts(p);
    var content := name[|RelPrefix|..];
    var k := |p.start|;
    assert content[..k] == p.start && content[k + 1..] == p.end;
    assert SplitsAt(content, types, k);
    forall j | 1 <= j < k ensures !SplitsAt(content, types, j) {
      assert content[j] == p.start[j];
    }
    var r := SplitFrom(content, types, 1);
    var k' :| 1 <= k' && SplitsAt(content, types, k') && r.value == Pair(content[..k'], content[k' + 1..])
            && forall j :: 1 <= j < k' ==> !SplitsAt(content, types, j);
    assert k' == k;
  }

  lemma CharAt(x: string, y: string, i: nat)
    requires i <= |x|
    ensures (x + "_" + y)[i] == if i == |x| then '_' else x[i]
  {
  }

  /** Partition names are injective on pairs whose start types contain no `_`. */
  lemma PartitionNameInjective(a: Pair, b: Pair)
    requires '_' !in a.start && '_' !in b.start
    requires PartitionName(a) == PartitionName(b)
    ensures a == b
  {
    PartitionNameParts(a);
    PartitionNameParts(b);
    var c := a.start + "_" + a.end;
    assert c == b.start + "_" + b.end;
    if |a.start| < |b.start| {
      CharAt(a.start, a.end, |a.start|);
      CharAt(b.start, b.end, |a.start|);
      assert false;
    } else if |b.start| < |a.start| {
      CharAt(a.start, a.end, |b.start|);
      CharAt(b.start, b.end, |b.start|);
      assert false;
    } else {
      assert a.start == c[..|a.start|] == b.start;
      assert a.end == c[|a.start| + 1..] == b.end;
    }
  }

  /** Without that restriction, names collide: ("a_b", "c") and ("a", "b_c")
      share a partition name and an edge label. */
  lemma PartitionNameCollision()
    ensures Pair("a_b", "c") != Pair("a", "b_c")
    ensures PartitionName(Pair("a_b", "c")) == PartitionName(Pair("a", "b_c"))
    ensures EdgeLabel(Pair("a_b", "c")) == EdgeLabel(Pair("a", "b_c"))
  {
  }

  /** The edge label is determined by the partition name alone, whichever split
      of it is chosen. */
  lemma EdgeLabelOfName(p: Pair)
    ensures EdgeLabel(p) == "related_to_" + PartitionName(p)[|RelPrefix|..]
  {
    PartitionNameParts(p);
  }
}

=== FILE: neighbors.dfy ===
/** The traversal `GET /node/{node_type}/{id}/neighbors`: recover type pairs
    from the partition table names, pick the partitions the direction asks
    for, run one directed pattern query per partition, union and truncate the
    rows, then assemble a node/edge graph. */
module Neighbors {
  import opened Outcomes
  import opened Strings
  import opened Tables
  import opened Dicts
  import opened Config
  import opened Naming
  import Enrichment
  import opened Selection

  // ---------------------------------------------------------------- sub-queries

  /** One directed pattern query over the partition table `table` of `pair`:
      `Out` matches the queried node as the stored source, `In` as the stored
      target. */
  datatype SubQuery = Out(table: string, pair: Pair) | In(table: string, pair: Pair)

  /** A row of the unioned query result. */
  datatype Hit = Hit(sourceId: Value, sourceType: string, targetId: Value, targetType: string, edgeType: string)

  predicate Outward(direction: string) {
    direction == "out" || direction == "both"
  }

  predicate Inward(direction: string) {
    direction == "in" || direction == "both"
  }

  /** The sub-queries for node type `t`, one table name at a time, in catalog order. */
  function Plan(names: seq<string>, types: set<string>, t: string, direction: string): (qs: seq<SubQuery>)
    ensures forall q :: q in qs <==>
      && q.table in names
      && ParseRelName(q.table, types) == Some(q.pair)
      && ((q.Out? && q.pair.start == t && Outward(direction)) || (q.In? && q.pair.end == t && Inward(direction)))
  {
    if names == [] then []
    else
      var rest := Plan(names[1..], types, t, direction);
      assert forall n :: n in names <==> n == names[0] || n in names[1..];
      match ParseRelName(names[0], types)
      case None => rest
      case Some(p) =>
        (if p.start == t && Outward(direction) then [Out(names[0], p)] else [])
        + (if p.end == t && Inward(direction) then [In(names[0], p)] else [])
        + rest
  }

  /** Any direction other than `out`, `in` and `both` selects nothing. */
  lemma PlanUnknownDirection(names: seq<string>, types: set<string>, t: string, direction: string)
    requires direction != "out" && direction != "in" && direction != "both"
    ensures Plan(names, types, t, direction) == []
  {
  }

  /** With `both`, a partition from a type to itself is queried twice, once per
      endpoint. */
  lemma PlanSameTypeTwice(names: seq<string>, types: set<string>, t: string, name: string)
    requires name in names && ParseRelName(name, types) == Some(Pair(t, t))
    ensures Out(name, Pair(t, t)) in Plan(names, types, t, "both")
    ensures In(name, Pair(t, t)) in Plan(names, types, t, "both")
  {
  }

  /** The pattern's filter: the matched endpoint's id equals the queried id. */
  predicate Keep(q: SubQuery, r: Row, id: string) {
    if q.Out? then Matches(Cell(r, Enrichment.StartColumn), id) else Matches(Cell(r, Enrichment.EndColumn), id)
  }

  /** The projected row: both endpoints in stored direction, whichever side matched. */
  function HitOf(q: SubQuery, r: Row): Hit {
    Hit(Cell(r, Enrichment.StartColumn), q.pair.start, Cell(r, Enrichment.EndColumn), q.pair.end, EdgeLabel(q.pair))
  }

  function Hits(q: SubQuery, rows: seq<Row>, id: string): (hs: seq<Hit>)
    ensures forall h :: h in hs <==> exists r :: r in rows && Keep(q, r, id) && h == HitOf(q, r)
  {
    if rows == [] then []
    else
      assert forall r :: r in rows <==> r == rows[0] || r in rows[1..];
      (if Keep(q, rows[0], id) then [HitOf(q, rows[0])] else []) + Hits(q, rows[1..], id)
  }

  /** The filter and the projection of sub-query `q`, as values. */
  function KeptBy(q: SubQuery, id: string): Row -> bool {
    (r: Row) => Keep(q, r, id)
  }

  function HitFor(q: SubQuery): Row -> Hit {
    (r: Row) => HitOf(q, r)
  }

  /** A sub-query yields one hit per kept row, in row order: duplicate rows
      give duplicate hits. */
  lemma {:induction false} HitsSelects(q: SubQuery, rows: seq<Row>, id: string) returns (idx: seq<nat>)
    ensures SelectedBy(rows, KeptBy(q, id), HitFor(q), Hits(q, rows, id), idx)
    decreases |rows|
  {
    if rows == [] {
      idx := [];
      SelectNil(KeptBy(q, id), HitFor(q));
    } else {
      var rest := HitsSelects(q, rows[1..], id);
      assert [rows[0]] + rows[1..] == rows;
      idx := SelectCons(rows[0], rows[1..], KeptBy(q, id), HitFor(q), Hits(q, rows[1..], id), rest);
    }
  }

  /** The pattern of `q` names only labels the graph declares: both vertex
      labels of its pair and the pair's edge label. */
  predicate Bound(q: SubQuery, db: Database) {
    && q.pair.start in db.vertexLabels && q.pair.end in db.vertexLabels
    && EdgeLabel(q.pair) in db.edgeLabels
  }

  /** Every sub-query's table exists and its pattern binds declared labels. */
  ghost predicate Runnable(qs: seq<SubQuery>, db: Database) {
    forall q :: q in qs ==> q.table in db.tables && Bound(q, db)
  }

  /** What `UNION ALL` returns, as a bag: every hit of every sub-query, none
      merged with another. */
  ghost function UnionBag(qs: seq<SubQuery>, db: Database, id: string): multiset<Hit>
    requires Runnable(qs, db)
    decreases |qs|
  {
    if qs == [] then multiset{}
    else
      assert forall q :: q in qs[1..] ==> q in qs;
      multiset(Hits(qs[0], db.tables[qs[0].table].rows, id)) + UnionBag(qs[1..], db, id)
  }

  /** `UNION ALL` of the sub-queries; the engine fails the whole statement if
      any table is missing or any pattern names a label the graph lacks. */
  function RunAll(qs: seq<SubQuery>, db: Database, id: string): (r: Result<seq<Hit>>)
    ensures r.Success? <==> Runnable(qs, db)
    ensures r.Failure? ==> r.error == EngineError
    ensures r.Success? ==> forall h :: h in r.value <==>
      exists q, row :: q in qs && row in db.tables[q.table].rows && Keep(q, row, id) && h == HitOf(q, row)
    ensures r.Success? ==> multiset(r.value) == UnionBag(qs, db, id)
  {
    if qs == [] then Success([])
    else
      assert forall q :: q in qs <==> q == qs[0] || q in qs[1..];
      if qs[0].table !in db.tables || !Bound(qs[0], db) then Failure(EngineError)
      else
        match RunAll(qs[1..], db, id)
        case Failure(e) => Failure(e)
        case Success(rest) => Success(Hits(qs[0], db.tables[qs[0].table].rows, id) + rest)
  }

  /** The union the handler runs for node type `t`. */
  function Union(cfg: seq<Source>, db: Database, t: string, id: string, direction: string): Result<seq<Hit>> {
    RunAll(Plan(db.names, TypeSet(cfg), t, direction), db, id)
  }

  // ---------------------------------------------------------------- LIMIT

  function Min(a: int, b: int): int {
    if a <= b then a else b
  }

  /** The order in which the engine happens to return the union. `LIMIT`
      without `ORDER BY` fixes no order, so the model takes it as a parameter:
      any rearrangement `order` of the union, or, for an argument that is not
      one, the stored order. */
  function Arrange<T(==)>(xs: seq<T>, order: seq<T>): (ys: seq<T>)
    ensures |ys| == |xs|
    ensures multiset(ys) == multiset(xs)
    ensures multiset(order) == multiset(xs) ==> ys == order
  {
    if multiset(order) == multiset(xs) then
      assert |order| == |multiset(order)| == |multiset(xs)| == |xs|;
      order
    else xs
  }

  /** `SELECT * FROM (union) LIMIT limit` for a non-negative limit. */
  function Take<T(!new)>(xs: seq<T>, limit: nat): (ys: seq<T>)
    ensures |ys| == Min(limit, |xs|)
    ensures ys <= xs
    ensures forall y :: y in ys ==> y in xs
    ensures |xs| <= limit ==> ys == xs
  {
    xs[..Min(limit, |xs|)]
  }

  // ---------------------------------------------------------------- assembly

  datatype Edge = Edge(id: string, source: string, target: string, edgeType: string)
  datatype Node = Node(id: string, nodeType: string, properties: Row)
  datatype Graph = Graph(nodes: seq<Node>, edges: seq<Edge>)

  /** The edge object of one result row; its id is derived from the endpoints. */
  function EdgeOf(h: Hit): Edge {
    var s := Render(h.sourceId);
    var d := Render(h.targetId);
    Edge(RelPrefix + s + "_" + d, s, d, h.edgeType)
  }

  function Edges(rows: seq<Hit>): (es: seq<Edge>)
    ensures |es| == |rows|
    ensures forall i :: 0 <= i < |rows| ==> es[i] == EdgeOf(rows[i])
  {
    seq(|rows|, i requires 0 <= i < |rows| => EdgeOf(rows[i]))
  }

  /** `nodes_map`: seeded with the queried node, then both endpoints of every
      row written in row order. */
  function TypeMap(id: string, t: string, rows: seq<Hit>): (d: Dict<string, string>)
    ensures d.Valid()
    ensures |d.keys| > 0 && d.keys[0] == id
    ensures forall k :: k in d.entries <==> k == id || Endpoint(k, rows)
    decreases |rows|
  {
    if rows == [] then Dict([id], map[id := t])
    else
      var init := rows[..|rows| - 1];
      var h := rows[|rows| - 1];
      EndpointSnoc(rows);
      TypeMap(id, t, init).Put(Render(h.sourceId), h.sourceType).Put(Render(h.targetId), h.targetType)
  }

  /** `k` is the rendered source or target id of some row. */
  ghost predicate Endpoint(k: string, rows: seq<Hit>) {
    exists h :: h in rows && (k == Render(h.sourceId) || k == Render(h.targetId))
  }

  lemma EndpointSnoc(rows: seq<Hit>)
    requires rows != []
    ensures forall k :: Endpoint(k, rows) <==>
      Endpoint(k, rows[..|rows| - 1]) || k == Render(rows[|rows| - 1].sourceId) || k == Render(rows[|rows| - 1].targetId)
  {
    var init := rows[..|rows| - 1];
    assert rows == init + [rows[|rows| - 1]];
  }

  /** Reference reading of `nodes_map`: the type of the last write to `k`,
      the seed counting as the first write. */
  function LastWrite(id: string, t: string, rows: seq<Hit>, k: string): Option<string>
    decreases |rows|
  {
    if rows == [] then (if k == id then Some(t) else None)
    else
      var h := rows[|rows| - 1];
      if Render(h.targetId) == k then Some(h.targetType)
      else if Render(h.sourceId) == k then Some(h.sourceType)
      else LastWrite(id, t, rows[..|rows| - 1], k)
  }

  /** Rows overwrite entries by id, the last write winning. */
  lemma {:induction false} TypeMapLastWins(id: string, t: string, rows: seq<Hit>, k: string)
    ensures LastWrite(id, t, rows, k) ==
      if k in TypeMap(id, t, rows).entries then Some(TypeMap(id, t, rows).entries[k]) else None
    decreases |rows|
  {
    if rows != [] {
      TypeMapLastWins(id, t, rows[..|rows| - 1], k);
    }
  }

  /** `g` groups `keys` by their type under `m`: every key sits in the group
      of its type, no group holds a key of another type or an unknown key,
      and no group is empty. */
  ghost predicate Grouped(keys: seq<string>, m: map<string, string>, g: Dict<string, seq<string>>)
    requires forall k :: k in keys ==> k in m
  {
    && g.Valid()
    && (forall k :: k in keys ==> m[k] in g.entries && k in g.entries[m[k]])
    && (forall ty, k :: ty in g.entries && k in g.entries[ty] ==> k in keys && m[k] == ty)
    && (forall ty :: ty in g.entries ==> |g.entries[ty]| > 0)
  }

  /** `ids_by_type`: the keys grouped by their type, types in order of first
      appearance and ids in key order. */
  function Group(keys: seq<string>, m: map<string, string>): (g: Dict<string, seq<string>>)
    requires forall k :: k in keys ==> k in m
    ensures Grouped(keys, m, g)
    decreases |keys|
  {
    if keys == [] then Empty()
    else
      var init := keys[..|keys| - 1];
      var k := keys[|keys| - 1];
      assert keys == init + [k];
      var g := Group(init, m);
      GroupAppend(init, k, m, g);
      AddToGroup(g, k, m[k])
  }

  /** `ids_by_type[ty].append(k)`, creating the group when it is new. */
  function AddToGroup(g: Dict<string, seq<string>>, k: string, ty: string): (g': Dict<string, seq<string>>)
    requires g.Valid()
    ensures g'.Valid()
  {
    if ty in g.entries then g.Put(ty, g.entries[ty] + [k]) else g.Put(ty, [k])
  }

  /** The grouping survives appending one more key. */
  lemma GroupAppend(init: seq<string>, k: string, m: map<string, string>, g: Dict<string, seq<string>>)
    requires k in m && forall x :: x in init ==> x in m
    requires Grouped(init, m, g)
    ensures Grouped(init + [k], m, AddToGroup(g, k, m[k]))
  {
    var g' := AddToGroup(g, k, m[k]);
    forall x | x in init + [k] ensures m[x] in g'.entries && x in g'.entries[m[x]] {
      if x != k {
        assert x in init;
      }
    }
  }

  /** Each id of the map falls into exactly one group: the one of its type. */
  lemma GroupExactlyOne(keys: seq<string>, m: map<string, string>, k: string, ty: string)
    requires forall x :: x in keys ==> x in m
    requires k in keys
    ensures ty in Group(keys, m).entries && k in Group(keys, m).entries[ty] <==> ty == m[k]
  {
  }

  /** The nodes built from the property rows of one type's table: rows whose id
      is requested and known to the map, NaN cells turned into NULL. */
  function NodesFrom(rows: seq<Row>, field: string, ty: string, ids: seq<string>, known: map<string, string>): (ns: seq<Node>)
    ensures forall n :: n in ns <==>
      (exists r :: r in rows && IsKey(Cell(r, field)) && Render(Cell(r, field)) in ids
                   && Render(Cell(r, field)) in known && n == Node(Render(Cell(r, field)), ty, Clean(r)))
  {
    if rows == [] then []
    else
      var r := rows[0];
      assert forall x :: x in rows <==> x == r || x in rows[1..];
      var here :=
        if IsKey(Cell(r, field)) && Render(Cell(r, field)) in ids then
          var props := Clean(r);
          CleanKeepsKey(r, field);
          var nid := Render(Cell(props, field));
          if nid in known then [Node(nid, ty, props)] else []
        else [];
      here + NodesFrom(rows[1..], field, ty, ids, known)
  }

  /** A property row the fetch of one type keeps: its id is a key, requested,
      and known to the node map. */
  predicate Fetched(r: Row, field: string, ids: seq<string>, known: map<string, string>) {
    IsKey(Cell(r, field)) && Render(Cell(r, field)) in ids && Render(Cell(r, field)) in known
  }

  function FetchedBy(field: string, ids: seq<string>, known: map<string, string>): Row -> bool {
    (r: Row) => Fetched(r, field, ids, known)
  }

  function NodeFor(field: string, ty: string): Row -> Node {
    (r: Row) => Node(Render(Cell(r, field)), ty, Clean(r))
  }

  /** One node per kept property row, in table order: a row stored twice
      gives its node twice, and nothing is deduplicated by id. */
  lemma {:induction false} NodesFromSelects(rows: seq<Row>, field: string, ty: string, ids: seq<string>, known: map<string, string>)
    returns (idx: seq<nat>)
    ensures SelectedBy(rows, FetchedBy(field, ids, known), NodeFor(field, ty), NodesFrom(rows, field, ty, ids, known), idx)
    decreases |rows|
  {
    if rows == [] {
      idx := [];
      SelectNil(FetchedBy(field, ids, known), NodeFor(field, ty));
    } else {
      var rest := NodesFromSelects(rows[1..], field, ty, ids, known);
      assert [rows[0]] + rows[1..] == rows;
      if IsKey(Cell(rows[0], field)) {
        CleanKeepsKey(rows[0], field);
      }
      idx := SelectCons(rows[0], rows[1..], FetchedBy(field, ids, known), NodeFor(field, ty),
                        NodesFrom(rows[1..], field, ty, ids, known), rest);
    }
  }

  /** The property query of type `ty` can run: either the type has no source
      (and is skipped), or its source names an id field that is a column of
      an existing table. */
  predicate Fetchable(cfg: seq<Source>, db: Database, ty: string) {
    match FirstOfType(cfg, ty)
    case None => true
    case Some(src) => Truthy(src.idField) && src.table in db.tables && src.idField.value in db.tables[src.table].columns
  }

  /** `SELECT * FROM {table} WHERE {id_field} IN (ids)` for one type. */
  function FetchGroup(cfg: seq<Source>, db: Database, ty: string, ids: seq<string>, known: map<string, string>): (r: Result<seq<Node>>)
    ensures r.Success? <==> Fetchable(cfg, db, ty)
    ensures r.Failure? ==> r.error == EngineError
    ensures r.Success? && FirstOfType(cfg, ty).None? ==> r.value == []
    ensures r.Success? && FirstOfType(cfg, ty).Some? ==>
      var src := FirstOfType(cfg, ty).value;
      r.value == NodesFrom(db.tables[src.table].rows, src.idField.value, ty, ids, known)
  {
    match FirstOfType(cfg, ty)
    case None => Success([])
    case Some(src) =>
      match src.idField
      case None => Failure(EngineError)
      case Some(field) =>
        if field == "" || src.table !in db.tables || field !in db.tables[src.table].columns then Failure(EngineError)
        else Success(NodesFrom(db.tables[src.table].rows, field, ty, ids, known))
  }

  /** One property query per group, in group order; any failure aborts all. */
  function FetchAll(cfg: seq<Source>, db: Database, tys: seq<string>, g: map<string, seq<string>>, known: map<string, string>): (r: Result<seq<Node>>)
    requires forall ty :: ty in tys ==> ty in g
    ensures r.Success? <==> forall ty :: ty in tys ==> Fetchable(cfg, db, ty)
    ensures r.Failure? ==> r.error == EngineError
    ensures r.Success? ==> forall n :: n in r.value <==>
      exists ty :: ty in tys && n in FetchGroup(cfg, db, ty, g[ty], known).value
  {
    if tys == [] then Success([])
    else
      assert forall x :: x in tys <==> x == tys[0] || x in tys[1..];
      match FetchGroup(cfg, db, tys[0], g[tys[0]], known)
      case Failure(e) => Failure(e)
      case Success(here) =>
        match FetchAll(cfg, db, tys[1..], g, known)
        case Failure(e) => Failure(e)
        case Success(rest) => Success(here + rest)
  }

  /** Fetching the groups of `a + b` returns the nodes of `a`'s groups followed
      by those of `b`'s: the per-type results are concatenated in group order,
      with nothing merged. */
  lemma {:induction false} FetchAllConcat(
    cfg: seq<Source>, db: Database, a: seq<string>, b: seq<string>,
    g: map<string, seq<string>>, known: map<string, string>)
    requires forall ty :: ty in a ==> ty in g
    requires forall ty :: ty in b ==> ty in g
    ensures forall ty :: ty in a + b ==> ty in g
    ensures FetchAll(cfg, db, a + b, g, known).Success? <==>
      FetchAll(cfg, db, a, g, known).Success? && FetchAll(cfg, db, b, g, known).Success?
    ensures FetchAll(cfg, db, a + b, g, known).Success? ==>
      FetchAll(cfg, db, a + b, g, known).value == FetchAll(cfg, db, a, g, known).value + FetchAll(cfg, db, b, g, known).value
    decreases |a|
  {
    if a == [] {
      assert a + b == b;
    } else {
      assert (a + b)[0] == a[0] && (a + b)[1..] == a[1..] + b;
      assert forall ty :: ty in a[1..] ==> ty in a;
      FetchAllConcat(cfg, db, a[1..], b, g, known);
      assert FetchAll(cfg, db, a + b, g, known) ==
        match FetchGroup(cfg, db, a[0], g[a[0]], known)
        case Failure(e) => Failure(e)
        case Success(here) =>
          match FetchAll(cfg, db, a[1..] + b, g, known)
          case Failure(e) => Failure(e)
          case Success(rest) => Success(here + rest);
      assert FetchAll(cfg, db, a, g, known) ==
        match FetchGroup(cfg, db, a[0], g[a[0]], known)
        case Failure(e) => Failure(e)
        case Success(here) =>
          match FetchAll(cfg, db, a[1..], g, known)
          case Failure(e) => Failure(e)
          case Success(rest) => Success(here + rest);
    }
  }

  /** Steps 3 and 4 of the handler, from the truncated rows to the response. */
  function Assemble(cfg: seq<Source>, db: Database, id: string, t: string, rows: seq<Hit>): (r: Result<Graph>)
    ensures r.Success? <==> forall k :: k in TypeMap(id, t, rows).entries ==> Fetchable(cfg, db, TypeMap(id, t, rows).entries[k])
    ensures r.Failure? ==> r.error == EngineError
    ensures r.Success? ==> r.value.edges == Edges(rows)
  {
    var nm := TypeMap(id, t, rows);
    var g := Group(nm.keys, nm.entries);
    assert forall k :: k in nm.entries ==> nm.entries[k] in g.keys by {
      forall k | k in nm.entries ensures nm.entries[k] in g.keys {
        assert k in nm.keys;
      }
    }
    match FetchAll(cfg, db, g.keys, g.entries, nm.entries)
    case Failure(e) =>
      var ty :| ty in g.keys && !Fetchable(cfg, db, ty);
      var k := g.entries[ty][0];
      assert k in nm.entries && nm.entries[k] == ty;
      Failure(e)
    case Success(nodes) => Success(Graph(nodes, Edges(rows)))
  }

  // ---------------------------------------------------------------- the handler

  /** The edges of the response are a `LIMIT limit` slice of the union: as
      many as the limit allows, drawn from the union's edges without reuse
      (a sub-multiset), and all of them when the union fits. */
  ghost predicate Truncation(edges: seq<Edge>, union: seq<Hit>, limit: int) {
    && |edges| == Min(limit, |union|)
    && multiset(edges) <= multiset(Edges(union))
    && (|union| <= limit ==> multiset(edges) == multiset(Edges(union)))
    && (forall e :: e in edges ==> exists h :: h in union && e == EdgeOf(h))
  }

  lemma EdgesConcat(a: seq<Hit>, b: seq<Hit>)
    ensures Edges(a + b) == Edges(a) + Edges(b)
  {
    assert forall i :: 0 <= i < |a + b| ==> Edges(a + b)[i] == (Edges(a) + Edges(b))[i];
  }

  /** Rearranging the rows rearranges their edges. */
  lemma {:induction false} EdgesRearranged(a: seq<Hit>, b: seq<Hit>)
    requires multiset(a) == multiset(b)
    ensures multiset(Edges(a)) == multiset(Edges(b))
    decreases |a|
  {
    if a == [] {
      assert |b| == |multiset(b)| == 0;
    } else {
      var x := a[0];
      assert x in multiset(b);
      var j :| 0 <= j < |b| && b[j] == x;
      var b' := b[..j] + b[j + 1..];
      assert b == b[..j] + [x] + b[j + 1..];
      assert a == [x] + a[1..];
      assert multiset(a) == multiset{x} + multiset(a[1..]);
      assert multiset(b) == multiset(b[..j]) + multiset{x} + multiset(b[j + 1..]);
      assert multiset(b') == multiset(b[..j]) + multiset(b[j + 1..]);
      assert multiset(a[1..]) == multiset(a) - multiset{x};
      assert multiset(b') == multiset(b) - multiset{x};
      EdgesRearranged(a[1..], b');
      EdgesConcat([x], a[1..]);
      EdgesConcat(b[..j] + [x], b[j + 1..]);
      EdgesConcat(b[..j], [x]);
      EdgesConcat(b[..j], b[j + 1..]);
    }
  }

  /** A prefix of the rows contributes a sub-multiset of their edges. */
  lemma EdgesPrefix(a: seq<Hit>, k: nat)
    requires k <= |a|
    ensures multiset(Edges(a[..k])) <= multiset(Edges(a))
    ensures multiset(a[..k]) <= multiset(a)
  {
    assert a == a[..k] + a[k..];
    EdgesConcat(a[..k], a[k..]);
  }

  lemma TruncateEdges(union: seq<Hit>, limit: nat, order: seq<Hit>)
    ensures Truncation(Edges(Take(Arrange(union, order), limit)), union, limit)
  {
    var arranged := Arrange(union, order);
    var rows := Take(arranged, limit);
    var es := Edges(rows);
    EdgesRearranged(arranged, union);
    EdgesPrefix(arranged, |rows|);
    forall e | e in es ensures exists h :: h in union && e == EdgeOf(h) {
      var i :| 0 <= i < |es| && es[i] == e;
      assert rows[i] in rows && rows[i] in arranged;
      assert rows[i] in multiset(arranged);
    }
  }

  /** Every type that the `nodes_map` of the kept rows assigns can fetch its
      properties. */
  ghost predicate SliceFetchable(cfg: seq<Source>, db: Database, id: string, t: string, union: seq<Hit>, limit: nat, order: seq<Hit>) {
    var nm := TypeMap(id, t, Take(Arrange(union, order), limit));
    forall k :: k in nm.entries ==> Fetchable(cfg, db, nm.entries[k])
  }

  /** Steps 2 to 4 once the sub-queries `qs` are planned: run the union, keep
      a `LIMIT limit` slice in the engine's order, assemble the graph. */
  function Traverse(cfg: seq<Source>, db: Database, id: string, t: string, qs: seq<SubQuery>, limit: nat, order: seq<Hit>): (r: Result<Graph>)
    ensures r.Success? <==> Runnable(qs, db) && SliceFetchable(cfg, db, id, t, RunAll(qs, db, id).value, limit, order)
    ensures r.Failure? ==> r.error == EngineError
    ensures r.Success? ==> RunAll(qs, db, id).Success? && Truncation(r.value.edges, RunAll(qs, db, id).value, limit)
  {
    match RunAll(qs, db, id)
    case Failure(e) => Failure(e)
    case Success(union) =>
      TruncateEdges(union, limit, order);
      Assemble(cfg, db, id, t, Take(Arrange(union, order), limit))
  }

  function GetNodeNeighbors(
    cfg: seq<Source>, db: Database, nodeType: string, id: string,
    direction: string, limit: int, order: seq<Hit>): (r: Result<Graph>)
    // an unknown type, after lowering, is rejected and is the only client error
    ensures r == Failure(InvalidNodeType(nodeType)) <==> FirstOfType(cfg, Lower(nodeType)).None?
    ensures r.Failure? && FirstOfType(cfg, Lower(nodeType)).Some? ==> r.error == EngineError
    // a known type succeeds exactly when the union runs under a valid limit and
    // every type met among the kept rows can fetch its properties
    ensures r.Success? <==>
      && FirstOfType(cfg, Lower(nodeType)).Some?
      && (|| Plan(db.names, TypeSet(cfg), Lower(nodeType), direction) == []
          || (&& limit >= 0
              && Runnable(Plan(db.names, TypeSet(cfg), Lower(nodeType), direction), db)
              && SliceFetchable(cfg, db, id, Lower(nodeType), Union(cfg, db, Lower(nodeType), id, direction).value, limit, order)))
    // no applicable partition: an empty graph, without even the queried node
    ensures FirstOfType(cfg, Lower(nodeType)).Some? && Plan(db.names, TypeSet(cfg), Lower(nodeType), direction) == []
      ==> r == Success(Graph([], []))
    // otherwise one edge per row of the truncated union, whatever the engine's order
    ensures r.Success? && Plan(db.names, TypeSet(cfg), Lower(nodeType), direction) != [] ==>
      && limit >= 0
      && Union(cfg, db, Lower(nodeType), id, direction).Success?
      && Truncation(r.value.edges, Union(cfg, db, Lower(nodeType), id, direction).value, limit)
  {
    var t := Lower(nodeType);
    if FirstOfType(cfg, t).None? then Failure(InvalidNodeType(nodeType))
    else
      var qs := Plan(db.names, TypeSet(cfg), t, direction);
      if qs == [] then Success(Graph([], []))
      else if limit < 0 then Failure(EngineError)
      else Traverse(cfg, db, id, t, qs, limit, order)
  }

  // ---------------------------------------------------------------- properties

  /** With a known type, any direction other than `out`, `in` and `both`
      answers the empty graph without querying. */
  lemma NeighborsUnknownDirection(
    cfg: seq<Source>, db: Database, nodeType: string, id: string,
    direction: string, limit: int, order: seq<Hit>)
    requires FirstOfType(cfg, Lower(nodeType)).Some?
    requires direction != "out" && direction != "in" && direction != "both"
    ensures GetNodeNeighbors(cfg, db, nodeType, id, direction, limit, order) == Success(Graph([], []))
  {
    PlanUnknownDirection(db.names, TypeSet(cfg), Lower(nodeType), direction);
  }

  /** A database in which every applicable partition exists and every
      configured type's property query can run never makes the handler fail
      for a known type and a non-negative limit. */
  lemma NeighborsSucceed(
    cfg: seq<Source>, db: Database, nodeType: string, id: string,
    direction: string, limit: int, order: seq<Hit>)
    requires FirstOfType(cfg, Lower(nodeType)).Some? && limit >= 0
    requires Runnable(Plan(db.names, TypeSet(cfg), Lower(nodeType), direction), db)
    requires forall i :: 0 <= i < |cfg| && cfg[i].nodeType.Some? ==> Fetchable(cfg, db, cfg[i].nodeType.value)
    ensures GetNodeNeighbors(cfg, db, nodeType, id, direction, limit, order).Success?
  {
    forall ty ensures Fetchable(cfg, db, ty) {
      if FirstOfType(cfg, ty).Some? {
        var i :| 0 <= i < |cfg| && cfg[i] == FirstOfType(cfg, ty).value && cfg[i].nodeType == Some(ty);
      }
    }
  }

  /** Every row of the union touches the queried node on a side the direction
      allows, and carries the label of its partition's type pair. */
  lemma UnionDirection(cfg: seq<Source>, db: Database, t: string, id: string, direction: string, h: Hit)
    requires Union(cfg, db, t, id, direction).Success? && h in Union(cfg, db, t, id, direction).value
    ensures h.edgeType == EdgeLabel(Pair(h.sourceType, h.targetType))
    ensures || (Outward(direction) && h.sourceType == t && Matches(h.sourceId, id))
            || (Inward(direction) && h.targetType == t && Matches(h.targetId, id))
  {
    var qs := Plan(db.names, TypeSet(cfg), t, direction);
    var q, row :| q in qs && row in db.tables[q.table].rows && Keep(q, row, id) && h == HitOf(q, row);
  }

  /** Conversely, every stored relationship of an applicable partition whose
      matched endpoint is the queried node is in the union. */
  lemma UnionComplete(cfg: seq<Source>, db: Database, t: string, id: string, direction: string, name: string, p: Pair, row: Row)
    requires Union(cfg, db, t, id, direction).Success?
    requires name in db.names && ParseRelName(name, TypeSet(cfg)) == Some(p)
    requires name in db.tables && row in db.tables[name].rows
    ensures Outward(direction) && p.start == t && Matches(Cell(row, Enrichment.StartColumn), id) ==>
      Hit(Cell(row, Enrichment.StartColumn), t, Cell(row, Enrichment.EndColumn), p.end, EdgeLabel(p)) in Union(cfg, db, t, id, direction).value
    ensures Inward(direction) && p.end == t && Matches(Cell(row, Enrichment.EndColumn), id) ==>
      Hit(Cell(row, Enrichment.StartColumn), p.start, Cell(row, Enrichment.EndColumn), t, EdgeLabel(p)) in Union(cfg, db, t, id, direction).value
  {
    var qs := Plan(db.names, TypeSet(cfg), t, direction);
    if Outward(direction) && p.start == t && Matches(Cell(row, Enrichment.StartColumn), id) {
      assert Out(name, p) in qs && Keep(Out(name, p), row, id);
    }
    if Inward(direction) && p.end == t && Matches(Cell(row, Enrichment.EndColumn), id) {
      assert In(name, p) in qs && Keep(In(name, p), row, id);
    }
  }

  /** Every returned edge is the edge of some row of the union. */
  lemma EdgeFromUnion(
    cfg: seq<Source>, db: Database, nodeType: string, id: string,
    direction: string, limit: int, order: seq<Hit>, e: Edge) returns (h: Hit)
    requires GetNodeNeighbors(cfg, db, nodeType, id, direction, limit, order).Success?
    requires e in GetNodeNeighbors(cfg, db, nodeType, id, direction, limit, order).value.edges
    ensures Union(cfg, db, Lower(nodeType), id, direction).Success?
    ensures h in Union(cfg, db, Lower(nodeType), id, direction).value && e == EdgeOf(h)
  {
    var t := Lower(nodeType);
    var r := GetNodeNeighbors(cfg, db, nodeType, id, direction, limit, order);
    assert Plan(db.names, TypeSet(cfg), t, direction) != [] by {
      assert FirstOfType(cfg, t).Some?;
      assert r.value.edges != [];
    }
    var union := Union(cfg, db, t, id, direction).value;
    assert Truncation(r.value.edges, union, limit);
    h :| h in union && e == EdgeOf(h);
  }

  /** The returned edges keep their stored direction: with `out` the queried
      node is every edge's source, with `in` every edge's target. */
  lemma NeighborsEdgesTouchNode(
    cfg: seq<Source>, db: Database, nodeType: string, id: string,
    direction: string, limit: int, order: seq<Hit>, e: Edge)
    requires GetNodeNeighbors(cfg, db, nodeType, id, direction, limit, order).Success?
    requires e in GetNodeNeighbors(cfg, db, nodeType, id, direction, limit, order).value.edges
    ensures direction == "out" ==> e.source == id
    ensures direction == "in" ==> e.target == id
    ensures e.source == id || e.target == id
    ensures e.id == RelPrefix + e.source + "_" + e.target
  {
    var h := EdgeFromUnion(cfg, db, nodeType, id, direction, limit, order, e);
    UnionDirection(cfg, db, Lower(nodeType), id, direction, h);
    HitEdgeTouches(h, Lower(nodeType), id, direction);
  }

  /** The edge of a hit found in a direction touches the queried id on that side. */
  lemma HitEdgeTouches(h: Hit, t: string, id: string, direction: string)
    requires || (Outward(direction) && h.sourceType == t && Matches(h.sourceId, id))
             || (Inward(direction) && h.targetType == t && Matches(h.targetId, id))
    ensures direction == "out" ==> EdgeOf(h).source == id
    ensures direction == "in" ==> EdgeOf(h).target == id
    ensures EdgeOf(h).source == id || EdgeOf(h).target == id
    ensures EdgeOf(h).id == RelPrefix + EdgeOf(h).source + "_" + EdgeOf(h).target
  {
    if direction == "out" {
      assert !Inward(direction);
    } else if direction == "in" {
      assert !Outward(direction);
    }
  }

  /** A node is returned for the type a property record is stored under. */
  ghost predicate HasRecord(cfg: seq<Source>, db: Database, n: Node) {
    match FirstOfType(cfg, n.nodeType)
    case None => false
    case Some(src) =>
      && Truthy(src.idField)
      && src.table in db.tables
      && exists r :: r in db.tables[src.table].rows && IsKey(Cell(r, src.idField.value))
                     && Render(Cell(r, src.idField.value)) == n.id && n.properties == Clean(r)
  }

  /** The nodes of the response: exactly the property records of the ids in
      `nodes_map`, each under the type the map assigned it. */
  lemma {:induction false} AssembleNodes(cfg: seq<Source>, db: Database, id: string, t: string, rows: seq<Hit>, n: Node)
    requires Assemble(cfg, db, id, t, rows).Success?
    ensures n in Assemble(cfg, db, id, t, rows).value.nodes <==>
      n.id in TypeMap(id, t, rows).entries && n.nodeType == TypeMap(id, t, rows).entries[n.id] && HasRecord(cfg, db, n)
  {
    var nm := TypeMap(id, t, rows);
    var g := Group(nm.keys, nm.entries);
    var nodes := Assemble(cfg, db, id, t, rows).value.nodes;
    assert FetchAll(cfg, db, g.keys, g.entries, nm.entries).Success?;
    assert nodes == FetchAll(cfg, db, g.keys, g.entries, nm.entries).value;
    if n in nodes {
      var ty :| ty in g.keys && n in FetchGroup(cfg, db, ty, g.entries[ty], nm.entries).value;
      var src := FirstOfType(cfg, ty).value;
      var field := src.idField.value;
      var r :| r in db.tables[src.table].rows && IsKey(Cell(r, field)) && Render(Cell(r, field)) in g.entries[ty]
               && Render(Cell(r, field)) in nm.entries && n == Node(Render(Cell(r, field)), ty, Clean(r));
      assert n.id in nm.keys && nm.entries[n.id] == ty;
      assert HasRecord(cfg, db, n);
    }
    if n.id in nm.entries && n.nodeType == nm.entries[n.id] && HasRecord(cfg, db, n) {
      var ty := n.nodeType;
      assert n.id in nm.keys;
      assert ty in g.entries && n.id in g.entries[ty];
      assert ty in g.keys;
      var src := FirstOfType(cfg, ty).value;
      var field := src.idField.value;
      var r :| r in db.tables[src.table].rows && IsKey(Cell(r, field)) && Render(Cell(r, field)) == n.id && n.properties == Clean(r);
      assert n in NodesFrom(db.tables[src.table].rows, field, ty, g.entries[ty], nm.entries);
      assert n in FetchGroup(cfg, db, ty, g.entries[ty], nm.entries).value;
    }
  }

  /** The ids of `nodes_map` are the queried id and the endpoints of the
      returned edges. */
  lemma TypeMapEndpoints(id: string, t: string, rows: seq<Hit>, k: string)
    ensures k in TypeMap(id, t, rows).entries <==>
      k == id || exists e :: e in Edges(rows) && (k == e.source || k == e.target)
  {
    var es := Edges(rows);
    if exists e :: e in es && (k == e.source || k == e.target) {
      var e :| e in es && (k == e.source || k == e.target);
      var i :| 0 <= i < |es| && es[i] == e;
      assert rows[i] in rows;
    }
    if exists h :: h in rows && (k == Render(h.sourceId) || k == Render(h.targetId)) {
      var h :| h in rows && (k == Render(h.sourceId) || k == Render(h.targetId));
      var i :| 0 <= i < |rows| && rows[i] == h;
      assert es[i] in es;
    }
  }

  /** The response is assembled from a `LIMIT limit` slice of the union. */
  lemma NeighborsRows(
    cfg: seq<Source>, db: Database, nodeType: string, id: string,
    direction: string, limit: int, order: seq<Hit>) returns (rows: seq<Hit>)
    requires GetNodeNeighbors(cfg, db, nodeType, id, direction, limit, order).Success?
    requires Plan(db.names, TypeSet(cfg), Lower(nodeType), direction) != []
    ensures Union(cfg, db, Lower(nodeType), id, direction).Success?
    ensures |rows| == Min(limit, |Union(cfg, db, Lower(nodeType), id, direction).value|)
    ensures multiset(rows) <= multiset(Union(cfg, db, Lower(nodeType), id, direction).value)
    ensures multiset(order) == multiset(Union(cfg, db, Lower(nodeType), id, direction).value) ==>
      rows == order[..|rows|]
    ensures Assemble(cfg, db, id, Lower(nodeType), rows) == GetNodeNeighbors(cfg, db, nodeType, id, direction, limit, order)
  {
    var union := Union(cfg, db, Lower(nodeType), id, direction).value;
    rows := Take(Arrange(union, order), limit);
    EdgesPrefix(Arrange(union, order), |rows|);
  }

  /** Every returned node is the queried node or an endpoint of a returned
      edge, and carries the property record stored for it under its type. */
  lemma NeighborsNodes(
    cfg: seq<Source>, db: Database, nodeType: string, id: string,
    direction: string, limit: int, order: seq<Hit>, n: Node)
    requires GetNodeNeighbors(cfg, db, nodeType, id, direction, limit, order).Success?
    requires n in GetNodeNeighbors(cfg, db, nodeType, id, direction, limit, order).value.nodes
    ensures HasRecord(cfg, db, n)
    ensures n.id == id || exists e :: e in GetNodeNeighbors(cfg, db, nodeType, id, direction, limit, order).value.edges
                                     && (n.id == e.source || n.id == e.target)
  {
    var t := Lower(nodeType);
    var r := GetNodeNeighbors(cfg, db, nodeType, id, direction, limit, order);
    assert Plan(db.names, TypeSet(cfg), t, direction) != [] by {
      assert FirstOfType(cfg, t).Some?;
      assert r.value.nodes != [];
    }
    var rows := NeighborsRows(cfg, db, nodeType, id, direction, limit, order);
    AssembleNodes(cfg, db, id, t, rows, n);
    TypeMapEndpoints(id, t, rows, n.id);
  }
}

=== FILE: node_lookup.dfy ===
/** The point lookup `GET /node/{node_type}/{id}`: resolve the type in the
    catalog, then read the first row whose id column equals the id. */
module NodeLookup {
  import opened Outcomes
  import opened Tables
  import opened Config

  /** The response body `{count, data}`. */
  datatype NodeAnswer = NodeAnswer(count: nat, data: Option<Row>)

  /** Row `i` is the first row whose `field` cell matches `id`. */
  predicate IsFirstMatch(rows: seq<Row>, field: string, id: string, i: int)
    requires 0 <= i < |rows|
  {
    Matches(Cell(rows[i], field), id) && forall j :: 0 <= j < i ==> !Matches(Cell(rows[j], field), id)
  }

  /** The first row whose `field` cell matches `id`. */
  function FirstMatch(rows: seq<Row>, field: string, id: string): (r: Option<Row>)
    ensures r.None? <==> forall i :: 0 <= i < |rows| ==> !Matches(Cell(rows[i], field), id)
    ensures r.Some? ==> exists i :: 0 <= i < |rows| && rows[i] == r.value && Matches(Cell(rows[i], field), id)
                                 && forall j :: 0 <= j < i ==> !Matches(Cell(rows[j], field), id)
  {
    if rows == [] then None
    else if Matches(Cell(rows[0], field), id) then Some(rows[0])
    else
      var r := FirstMatch(rows[1..], field, id);
      assert forall i :: 1 <= i < |rows| ==> rows[i] == rows[1..][i - 1];
      r
  }

  /** The engine can run `SELECT * FROM {table} WHERE {id_field} = ?`. */
  predicate Queryable(db: Database, table: string, field: string) {
    table in db.tables && field in db.tables[table].columns
  }

  function GetNode(cfg: seq<Source>, db: Database, nodeType: string, id: string): (r: Result<NodeAnswer>)
    // an unknown type (matched exactly, without case folding) is a client error
    ensures r == Failure(InvalidNodeType(nodeType)) <==> forall i :: 0 <= i < |cfg| ==> cfg[i].nodeType != Some(nodeType)
    // a known type without an id field is a configuration error
    ensures r == Failure(MissingIdField(nodeType)) <==>
      FirstOfType(cfg, nodeType).Some? && !Truthy(FirstOfType(cfg, nodeType).value.idField)
    // a known type with an id field answers whenever its table can be queried,
    // finding no row included; a query the engine rejects is a server error
    ensures r.Success? <==>
      && FirstOfType(cfg, nodeType).Some?
      && Truthy(FirstOfType(cfg, nodeType).value.idField)
      && Queryable(db, FirstOfType(cfg, nodeType).value.table, FirstOfType(cfg, nodeType).value.idField.value)
    ensures r == Failure(EngineError) <==>
      && FirstOfType(cfg, nodeType).Some?
      && Truthy(FirstOfType(cfg, nodeType).value.idField)
      && !Queryable(db, FirstOfType(cfg, nodeType).value.table, FirstOfType(cfg, nodeType).value.idField.value)
    ensures r.Success? ==> (r.value.count == 0 <==> r.value.data.None?) && r.value.count <= 1
    // once the source is known, the answer reads only that source's table
    ensures r.Success? ==>
      var src := FirstOfType(cfg, nodeType).value;
      && Truthy(src.idField)
      && Queryable(db, src.table, src.idField.value)
      && (r.value.count == 0 <==>
            forall row :: row in db.tables[src.table].rows ==> !Matches(Cell(row, src.idField.value), id))
      && (r.value.data.Some? ==>
            (forall k :: k in r.value.data.value ==> r.value.data.value[k] != NaN)
            && Matches(Cell(r.value.data.value, src.idField.value), id))
  {
    match FirstOfType(cfg, nodeType)
    case None => Failure(InvalidNodeType(nodeType))
    case Some(src) =>
      if !Truthy(src.idField) then Failure(MissingIdField(nodeType))
      else
        var field := src.idField.value;
        if !Queryable(db, src.table, field) then Failure(EngineError)
        else
          match FirstMatch(db.tables[src.table].rows, field, id)
          case None => Success(NodeAnswer(0, None))
          case Some(row) =>
            CleanKeepsKey(row, field);
            Success(NodeAnswer(1, Some(Clean(row))))
  }

  /** Both validation errors are decided before any query: they do not depend
      on the database at all. */
  lemma GetNodeValidatesFirst(cfg: seq<Source>, db1: Database, db2: Database, nodeType: string, id: string)
    requires FirstOfType(cfg, nodeType).None? || !Truthy(FirstOfType(cfg, nodeType).value.idField)
    ensures GetNode(cfg, db1, nodeType, id) == GetNode(cfg, db2, nodeType, id)
    ensures GetNode(cfg, db1, nodeType, id).Failure?
    ensures GetNode(cfg, db1, nodeType, id).error != EngineError
  {
  }

  /** The record found is the first matching row of the source's table with
      NaN cells turned into NULL. */
  lemma GetNodeFirstRow(cfg: seq<Source>, db: Database, nodeType: string, id: string, src: Source, field: string)
    requires FirstOfType(cfg, nodeType) == Some(src) && src.idField == Some(field)
    requires GetNode(cfg, db, nodeType, id).Success?
    requires GetNode(cfg, db, nodeType, id).value.count == 1
    ensures src.table in db.tables
    ensures exists i :: 0 <= i < |db.tables[src.table].rows| && IsFirstMatch(db.tables[src.table].rows, field, id, i)
                     && GetNode(cfg, db, nodeType, id).value.data == Some(Clean(db.tables[src.table].rows[i]))
  {
    var rows := db.tables[src.table].rows;
    var m := FirstMatch(rows, field, id);
    assert m.Some? && GetNode(cfg, db, nodeType, id).value.data == Some(Clean(m.value));
    var i :| 0 <= i < |rows| && rows[i] == m.value && Matches(Cell(rows[i], field), id)
          && forall j :: 0 <= j < i ==> !Matches(Cell(rows[j], field), id);
    assert IsFirstMatch(rows, field, id, i);
  }
}

=== FILE: outcomes.dfy ===
/** Failure-compatible wrappers shared by every part of the model: an
    optional value, and a result that either carries a value or one of the
    faults the system reports. */
module Outcomes {

  datatype Option<+T> = None | Some(value: T) {
    function GetOr(default: T): T {
      match this
      case Some(v) => v
      case None => default
    }
  }

  /** The faults the system raises. The first three surface through the HTTP
      layer; `FileNotFound` is raised by the ingestion pass before serving. */
  datatype Fault =
    | InvalidNodeType(name: string)   // client error: unknown node type
    | MissingIdField(name: string)    // configuration error found at request time
    | EngineError                     // any failure reported by the query engine
    | FileNotFound(path: string)      // a required input file does not exist

  /** The HTTP status the request layer maps a request-time fault to. */
  function Status(f: Fault): (code: nat)
    requires !f.FileNotFound?
    ensures code == 400 <==> f.InvalidNodeType?
    ensures code == 400 || code == 500
  {
    if f.InvalidNodeType? then 400 else 500
  }

  datatype Result<+T> = Success(value: T) | Failure(error: Fault) {
    predicate IsFailure() {
      Failure?
    }

    function PropagateFailure<U>(): Result<U>
      requires Failure?
    {
      Failure(error)
    }

    function Extract(): T
      requires Success?
    {
      value
    }
  }
}

=== FILE: paths.dfy ===
/** POSIX path helpers as Python's `os.path` defines them. */
module Paths {

  /** Index just past the last `/` of `p`, or 0 when there is none. */
  function BaseStart(p: string): (k: nat)
    ensures k <= |p|
    ensures k > 0 ==> p[k - 1] == '/'
    ensures forall i :: k <= i < |p| ==> p[i] != '/'
    decreases |p|
  {
    if |p| == 0 then 0
    else if p[|p| - 1] == '/' then |p|
    else BaseStart(p[..|p| - 1])
  }

  /** `os.path.basename`: everything after the final `/`. */
  function Basename(p: string): (b: string)
    ensures '/' !in b
    ensures |b| <= |p| && p[|p| - |b|..] == b
  {
    p[BaseStart(p)..]
  }

  /** The base name is the whole last component: it is either the whole
      path or preceded by a `/`. */
  lemma BasenameIsLastComponent(p: string)
    ensures |Basename(p)| == |p| || p[|p| - |Basename(p)| - 1] == '/'
  {
  }

  /** `os.path.join(a, b)` for two components. */
  function Join(a: string, b: string): string {
    if |b| > 0 && b[0] == '/' then b
    else if |a| == 0 || a[|a| - 1] == '/' then a + b
    else a + "/" + b
  }

  lemma JoinBasename(dir: string, p: string)
    ensures Join(dir, Basename(p)) ==
      if |dir| == 0 || dir[|dir| - 1] == '/' then dir + Basename(p) else dir + "/" + Basename(p)
  {
    var b := Basename(p);
    if |b| > 0 {
      assert b[0] in b;
    }
  }

  /** The basename of `dir/name` is `name` when `name` holds no `/`. */
  lemma BasenameOfJoined(dir: string, name: string)
    requires '/' !in name
    ensures Basename(dir + "/" + name) == name
  {
    var p := dir + "/" + name;
    var k := BaseStart(p);
    assert p[|dir|] == '/';
    forall i | |dir| < i < |p| ensures p[i] != '/' {
      assert p[i] == name[i - |dir| - 1];
    }
    assert k == |dir| + 1;
    assert p[k..] == name;
  }
}

=== FILE: processor.dfy ===
/** The ICIJ ingestion pass, run once before loading: find each node source's
    file (trying the data directory first), convert CSV files to Parquet, then
    type every relationship by joining its endpoints with the node ids and
    write the result as one Parquet file. Returns the rewritten source list. */
module Processor {
  import opened Outcomes
  import opened Strings
  import Paths
  import opened Tables
  import opened Dicts
  import opened Config
  import opened Enrichment
  import opened Selection

  const Csv := ".csv"
  const Parquet := ".parquet"
  const DefaultDataDir := "/data"
  /** Where the typed relationships are written; relative to the working directory. */
  const EnrichedPath := "data/relationships.parquet"
  const StartTypeColumn := "start_node_type"
  const EndTypeColumn := "end_node_type"

  /** The files that exist, keyed by path, and the `DATA_DIR` variable if set.
      CSV and Parquet files are both modelled by the table they hold. */
  datatype Env = Env(fs: map<string, Table>, dataDir: Option<string>)

  function DataDir(env: Env): string {
    env.dataDir.GetOr(DefaultDataDir)
  }

  // ---------------------------------------------------------------- path resolution

  /** The file a node source is read from, and the path its source entry
      holds after the lookup; the entry is emitted as is only when the file
      is not converted. */
  datatype Resolved = Resolved(input: string, recorded: string)

  /** The lookup of one node source's file: the data directory by basename,
      then the sibling extension there, then the configured path and its
      sibling extension. A CSV file may stand in for a configured Parquet
      path; the entry keeps the configured path, but a CSV file is always
      converted next to itself, so such a source ends up pointing at the
      stand-in's own Parquet sibling, not at the configured path. */
  function ResolveNodePath(path: string, files: set<string>, dataDir: string): (r: Result<Resolved>)
    ensures r.Success? ==> r.value.input in files
    ensures r.Failure? ==> r.error == FileNotFound(path)
  {
    var name := Paths.Basename(path);
    var envPath := Paths.Join(dataDir, name);
    var first :=
      if envPath in files then Resolved(envPath, envPath)
      else if EndsWith(path, Csv) then
        var envParquet := Paths.Join(dataDir, ReplaceAll(name, Csv, Parquet));
        if envParquet in files then Resolved(envParquet, envParquet) else Resolved(path, path)
      else if EndsWith(path, Parquet) then
        var envCsv := Paths.Join(dataDir, ReplaceAll(name, Parquet, Csv));
        if envCsv in files then Resolved(envCsv, path) else Resolved(path, path)
      else Resolved(path, path);
    var file := first.input;
    if file in files then Success(first)
    else if EndsWith(file, Csv) then
      var parquetPath := ReplaceAll(file, Csv, Parquet);
      if parquetPath in files then Success(Resolved(parquetPath, parquetPath)) else Failure(FileNotFound(file))
    else if EndsWith(file, Parquet) then
      var csvPath := ReplaceAll(file, Parquet, Csv);
      if csvPath in files then Success(Resolved(csvPath, first.recorded)) else Failure(FileNotFound(file))
    else Failure(FileNotFound(file))
  }

  /** Reference reading of the lookup: the places tried, in priority order. */
  function NodeCandidates(path: string, dataDir: string): seq<Resolved> {
    var name := Paths.Basename(path);
    var envPath := Paths.Join(dataDir, name);
    if EndsWith(path, Csv) then
      var envParquet := Paths.Join(dataDir, ReplaceAll(name, Csv, Parquet));
      var parquetPath := ReplaceAll(path, Csv, Parquet);
      [Resolved(envPath, envPath), Resolved(envParquet, envParquet), Resolved(path, path), Resolved(parquetPath, parquetPath)]
    else if EndsWith(path, Parquet) then
      var envCsv := Paths.Join(dataDir, ReplaceAll(name, Parquet, Csv));
      [Resolved(envPath, envPath), Resolved(envCsv, path), Resolved(path, path), Resolved(ReplaceAll(path, Parquet, Csv), path)]
    else [Resolved(envPath, envPath), Resolved(path, path)]
  }

  /** The first candidate whose file exists. */
  function FirstExisting(cs: seq<Resolved>, files: set<string>): (r: Option<Resolved>)
    ensures r.None? <==> forall i :: 0 <= i < |cs| ==> cs[i].input !in files
    ensures r.Some? ==> exists i :: 0 <= i < |cs| && cs[i] == r.value && cs[i].input in files
                                 && forall j :: 0 <= j < i ==> cs[j].input !in files
  {
    if cs == [] then None
    else if cs[0].input in files then Some(cs[0])
    else
      var r := FirstExisting(cs[1..], files);
      assert forall i :: 1 <= i < |cs| ==> cs[i] == cs[1..][i - 1];
      r
  }

  /** The lookup takes the first existing candidate, and fails with the
      configured path exactly when none exists. */
  lemma ResolveNodePathFirstCandidate(path: string, files: set<string>, dataDir: string)
    ensures ResolveNodePath(path, files, dataDir) ==
      match FirstExisting(NodeCandidates(path, dataDir), files)
      case None => Failure(FileNotFound(path))
      case Some(c) => Success(c)
  {
    var cs := NodeCandidates(path, dataDir);
    var r := ResolveNodePath(path, files, dataDir);
    var f := FirstExisting(cs, files);
    ParquetIsNotCsv(path);
    if EndsWith(path, Csv) || EndsWith(path, Parquet) {
      if cs[0].input in files {
        assert f == Some(cs[0]) && r == Success(cs[0]);
      } else if cs[1].input in files {
        assert f == Some(cs[1]) && r == Success(cs[1]);
      } else if cs[2].input in files {
        assert f == Some(cs[2]) && r == Success(cs[2]);
      } else if cs[3].input in files {
        assert f == Some(cs[3]) && r == Success(cs[3]);
      } else {
        assert f == None && r == Failure(FileNotFound(path));
      }
    } else {
      if cs[0].input in files {
        assert f == Some(cs[0]) && r == Success(cs[0]);
      } else if cs[1].input in files {
        assert f == Some(cs[1]) && r == Success(cs[1]);
      } else {
        assert f == None && r == Failure(FileNotFound(path));
      }
    }
  }

  /** Some place the node lookup tries holds a file. */
  ghost predicate Findable(path: string, files: set<string>, dataDir: string) {
    exists c :: c in NodeCandidates(path, dataDir) && c.input in files
  }

  /** The node lookup succeeds exactly when some place it tries holds a file. */
  lemma FindableResolves(path: string, files: set<string>, dataDir: string)
    ensures ResolveNodePath(path, files, dataDir).Success? <==> Findable(path, files, dataDir)
  {
    ResolveNodePathFirstCandidate(path, files, dataDir);
    var cs := NodeCandidates(path, dataDir);
    if Findable(path, files, dataDir) {
      var c :| c in cs && c.input in files;
      var i :| 0 <= i < |cs| && cs[i] == c;
    }
    if ResolveNodePath(path, files, dataDir).Success? {
      var i :| 0 <= i < |cs| && cs[i].input in files;
      assert cs[i] in cs;
    }
  }

  /** A findable file stays findable when files are added. */
  lemma FindableGrows(path: string, files: set<string>, files': set<string>, dataDir: string)
    requires files <= files' && Findable(path, files, dataDir)
    ensures Findable(path, files', dataDir)
  {
    var c :| c in NodeCandidates(path, dataDir) && c.input in files;
    assert c.input in files';
  }

  /** A path with the Parquet extension does not have the CSV extension. */
  lemma ParquetIsNotCsv(s: string)
    ensures EndsWith(s, Parquet) ==> !EndsWith(s, Csv)
  {
    if EndsWith(s, Parquet) {
      assert s[|s| - 1] == 't';
    }
  }

  /** A file name suffix without `/` survives `os.path.basename`. */
  lemma BasenameKeepsSuffix(p: string, suffix: string)
    requires '/' !in suffix && EndsWith(p, suffix)
    ensures EndsWith(Paths.Basename(p), suffix)
  {
    var k := Paths.BaseStart(p);
    forall i | |p| - |suffix| <= i < |p| ensures p[i] != '/' {
      assert p[i] == suffix[i - (|p| - |suffix|)];
    }
    assert k <= |p| - |suffix|;
    assert Paths.Basename(p) == p[k..];
  }

  /** Joining onto a directory keeps the suffix of the file name. */
  lemma JoinKeepsSuffix(dir: string, name: string, suffix: string)
    requires EndsWith(name, suffix)
    ensures EndsWith(Paths.Join(dir, name), suffix)
  {
    var j := Paths.Join(dir, name);
    assert j[|j| - |name|..] == name;
    assert j[|j| - |suffix|..] == name[|name| - |suffix|..];
  }

  /** Both stand-ins for a configured Parquet path are CSV files. */
  lemma ParquetStandInsAreCsv(path: string, dataDir: string)
    requires EndsWith(path, Parquet)
    ensures EndsWith(Paths.Join(dataDir, ReplaceAll(Paths.Basename(path), Parquet, Csv)), Csv)
    ensures EndsWith(ReplaceAll(path, Parquet, Csv), Csv)
  {
    var name := Paths.Basename(path);
    BasenameKeepsSuffix(path, Parquet);
    SwapExtension(name, Parquet, Csv);
    JoinKeepsSuffix(dataDir, ReplaceAll(name, Parquet, Csv), Csv);
    SwapExtension(path, Parquet, Csv);
  }

  /** Every candidate is read where it is recorded, except a CSV file
      standing in for a configured Parquet path. */
  lemma CandidatesRecorded(path: string, dataDir: string)
    ensures forall c :: c in NodeCandidates(path, dataDir) ==> c.input == c.recorded || EndsWith(c.input, Csv)
  {
    if !EndsWith(path, Csv) && EndsWith(path, Parquet) {
      ParquetStandInsAreCsv(path, dataDir);
    }
  }

  /** A file that is not converted is recorded as the source's path. */
  lemma ResolvedNonCsv(path: string, files: set<string>, dataDir: string)
    requires ResolveNodePath(path, files, dataDir).Success?
    requires !EndsWith(ResolveNodePath(path, files, dataDir).value.input, Csv)
    ensures ResolveNodePath(path, files, dataDir).value.input == ResolveNodePath(path, files, dataDir).value.recorded
  {
    ResolveNodePathFirstCandidate(path, files, dataDir);
    CandidatesRecorded(path, dataDir);
    var cs := NodeCandidates(path, dataDir);
    var i :| 0 <= i < |cs| && cs[i] == ResolveNodePath(path, files, dataDir).value;
    assert cs[i] in cs;
  }

  /** The relationship file's lookup: like the node lookup, except that a
      configured Parquet path never falls back to a CSV file. */
  function ResolveRelPath(path: string, files: set<string>, dataDir: string): (r: Result<string>)
    ensures r.Success? ==> r.value in files
    ensures r.Failure? ==> r.error == FileNotFound(path)
  {
    var name := Paths.Basename(path);
    var envPath := Paths.Join(dataDir, name);
    var relPath :=
      if envPath in files then envPath
      else if EndsWith(path, Csv) then
        var envParquet := Paths.Join(dataDir, ReplaceAll(name, Csv, Parquet));
        if envParquet in files then envParquet else path
      else path;
    if relPath in files then Success(relPath)
    else if EndsWith(relPath, Csv) then
      var parquetPath := ReplaceAll(relPath, Csv, Parquet);
      if parquetPath in files then Success(parquetPath) else Failure(FileNotFound(relPath))
    else Failure(FileNotFound(relPath))
  }

  function RelCandidates(path: string, dataDir: string): seq<string> {
    var name := Paths.Basename(path);
    if EndsWith(path, Csv) then
      [Paths.Join(dataDir, name), Paths.Join(dataDir, ReplaceAll(name, Csv, Parquet)), path, ReplaceAll(path, Csv, Parquet)]
    else [Paths.Join(dataDir, name), path]
  }

  /** The relationship lookup takes the first existing candidate, and fails
      with the configured path exactly when none exists. */
  lemma ResolveRelPathFirstCandidate(path: string, files: set<string>, dataDir: string)
    ensures ResolveRelPath(path, files, dataDir).Success? <==>
      exists i :: 0 <= i < |RelCandidates(path, dataDir)| && RelCandidates(path, dataDir)[i] in files
    ensures ResolveRelPath(path, files, dataDir).Success? ==>
      exists i :: 0 <= i < |RelCandidates(path, dataDir)|
        && RelCandidates(path, dataDir)[i] == ResolveRelPath(path, files, dataDir).value
        && forall j :: 0 <= j < i ==> RelCandidates(path, dataDir)[j] !in files
  {
    var cs := RelCandidates(path, dataDir);
    if EndsWith(path, Csv) {
      var r := ResolveRelPath(path, files, dataDir);
      if cs[0] in files {
        assert r.value == cs[0];
      } else if cs[1] in files {
        assert r.value == cs[1];
      } else if cs[2] in files {
        assert r.value == cs[2];
      } else if cs[3] in files {
        assert r.value == cs[3];
      }
    } else {
      var r := ResolveRelPath(path, files, dataDir);
      if cs[0] in files {
        assert r.value == cs[0];
      } else if cs[1] in files {
        assert r.value == cs[1];
      }
    }
  }

  /** Some place the relationship lookup tries holds a file. */
  ghost predicate RelFindable(path: string, files: set<string>, dataDir: string) {
    exists p :: p in RelCandidates(path, dataDir) && p in files
  }

  /** The relationship lookup succeeds exactly when some place it tries holds a file. */
  lemma RelFindableResolves(path: string, files: set<string>, dataDir: string)
    ensures ResolveRelPath(path, files, dataDir).Success? <==> RelFindable(path, files, dataDir)
  {
    ResolveRelPathFirstCandidate(path, files, dataDir);
    var cs := RelCandidates(path, dataDir);
    if RelFindable(path, files, dataDir) {
      var p :| p in cs && p in files;
      var i :| 0 <= i < |cs| && cs[i] == p;
    }
    if ResolveRelPath(path, files, dataDir).Success? {
      var i :| 0 <= i < |cs| && cs[i] in files;
      assert cs[i] in cs;
    }
  }

  /** A findable relationship file stays findable when files are added. */
  lemma RelFindableGrows(path: string, files: set<string>, files': set<string>, dataDir: string)
    requires files <= files' && RelFindable(path, files, dataDir)
    ensures RelFindable(path, files', dataDir)
  {
    var p :| p in RelCandidates(path, dataDir) && p in files;
    assert p in files';
  }

  /** A configured Parquet relationship file that is missing, in the data
      directory and at its own path, is an error even when a CSV sibling
      exists. */
  lemma RelParquetNeverFallsBack(path: string, files: set<string>, dataDir: string)
    requires EndsWith(path, Parquet)
    requires Paths.Join(dataDir, Paths.Basename(path)) !in files && path !in files
    ensures ResolveRelPath(path, files, dataDir) == Failure(FileNotFound(path))
  {
    ParquetIsNotCsv(path);
  }

  // ---------------------------------------------------------------- node pass

  /** The node sources: every source except the relationship table, in order. */
  function NodeSources(cfg: seq<Source>): (ns: seq<Source>)
    ensures |ns| <= |cfg|
    ensures forall s :: s in ns <==> s in cfg && s.table != RelationshipsTable
    decreases |cfg|
  {
    if cfg == [] then []
    else
      var init := cfg[..|cfg| - 1];
      var s := cfg[|cfg| - 1];
      assert forall x :: x in cfg <==> x in init || x == s by {
        assert cfg == init + [s];
      }
      if s.table == RelationshipsTable then NodeSources(init) else NodeSources(init) + [s]
  }

  /** A source other than the relationship table. */
  predicate IsNodeSource(s: Source) {
    s.table != RelationshipsTable
  }

  function SameSource(s: Source): Source {
    s
  }

  /** Node sources split along a split of the configuration. */
  lemma {:induction false} NodeSourcesConcat(a: seq<Source>, b: seq<Source>)
    ensures NodeSources(a + b) == NodeSources(a) + NodeSources(b)
    decreases |b|
  {
    if b != [] {
      var b' := b[..|b| - 1];
      var y := b[|b| - 1];
      assert (a + b)[..|a + b| - 1] == a + b';
      assert (a + b)[|a + b| - 1] == y;
      assert b[..|b| - 1] == b';
      NodeSourcesConcat(a, b');
    } else {
      assert a + b == a;
    }
  }

  /** The node sources are the configuration's sources other than the
      relationship table, each once per occurrence, in configuration order. */
  lemma {:induction false} NodeSourcesSelects(cfg: seq<Source>) returns (idx: seq<nat>)
    ensures SelectedBy(cfg, IsNodeSource, SameSource, NodeSources(cfg), idx)
    decreases |cfg|
  {
    if cfg == [] {
      SelectNil(IsNodeSource, SameSource);
      idx := [];
    } else {
      var rest := NodeSourcesSelects(cfg[1..]);
      NodeSourcesConcat([cfg[0]], cfg[1..]);
      assert [cfg[0]] + cfg[1..] == cfg;
      assert [cfg[0]][..0] == [];
      assert NodeSources([cfg[0]]) == if IsNodeSource(cfg[0]) then [SameSource(cfg[0])] else [];
      idx := SelectCons(cfg[0], cfg[1..], IsNodeSource, SameSource, NodeSources(cfg[1..]), rest);
    }
  }

  /** The state threaded through the node loop: the files, the sources
      emitted so far and the `node_types` dictionary from type to file. */
  datatype Pass = Pass(fs: map<string, Table>, sources: seq<Source>, types: Dict<string, string>)

  /** The emitted sources are the node sources `ns`, in order, with only the
      path rewritten. */
  ghost predicate Emitted(ns: seq<Source>, sources: seq<Source>) {
    && |sources| == |ns|
    && forall i :: 0 <= i < |sources| ==> sources[i] == ns[i].(path := sources[i].path)
  }

  /** Every emitted path names an existing file that is not a CSV file. */
  ghost predicate Stored(sources: seq<Source>, fs: map<string, Table>) {
    forall i :: 0 <= i < |sources| ==> sources[i].path in fs && !EndsWith(sources[i].path, Csv)
  }

  /** Source `i` is the last emitted source of type `t`, and it reads `path`. */
  ghost predicate LastOfType(sources: seq<Source>, t: string, path: string) {
    exists i :: 0 <= i < |sources| && sources[i].nodeType == Some(t) && sources[i].path == path
      && forall j :: i < j < |sources| ==> sources[j].nodeType != Some(t)
  }

  /** `node_types` holds every truthy type of the emitted sources, mapped to
      the path of the last source of that type. */
  ghost predicate Tracks(types: Dict<string, string>, sources: seq<Source>) {
    && types.Valid()
    && (forall t :: t in types.entries <==> exists i :: 0 <= i < |sources| && sources[i].nodeType == Some(t) && t != "")
    && (forall t :: t in types.entries ==> LastOfType(sources, t, types.entries[t]))
  }

  /** `if n_type: node_types[n_type] = path` keeps the dictionary in step with
      one more emitted source. */
  lemma TracksAppend(types: Dict<string, string>, sources: seq<Source>, s: Source)
    requires Tracks(types, sources)
    ensures Tracks(if Truthy(s.nodeType) then types.Put(s.nodeType.value, s.path) else types, sources + [s])
  {
    var types' := if Truthy(s.nodeType) then types.Put(s.nodeType.value, s.path) else types;
    var sources' := sources + [s];
    forall t ensures t in types'.entries <==> exists i :: 0 <= i < |sources'| && sources'[i].nodeType == Some(t) && t != "" {
      if t in types.entries {
        var i :| 0 <= i < |sources| && sources[i].nodeType == Some(t) && t != "";
        assert sources'[i] == sources[i];
      }
      if Truthy(s.nodeType) && t == s.nodeType.value {
        assert sources'[|sources|] == s;
      }
      if exists i :: 0 <= i < |sources'| && sources'[i].nodeType == Some(t) && t != "" {
        var i :| 0 <= i < |sources'| && sources'[i].nodeType == Some(t) && t != "";
        if i < |sources| {
          assert sources[i] == sources'[i];
        }
      }
    }
    forall t | t in types'.entries ensures LastOfType(sources', t, types'.entries[t]) {
      if Truthy(s.nodeType) && t == s.nodeType.value {
        assert sources'[|sources|] == s;
      } else {
        var i :| 0 <= i < |sources| && sources[i].nodeType == Some(t) && sources[i].path == types.entries[t]
          && forall j :: i < j < |sources| ==> sources[j].nodeType != Some(t);
        assert sources'[i] == sources[i];
        assert t != "";
        assert s.nodeType != Some(t);
      }
    }
  }

  /** The file a resolved input is loaded from: a CSV file's Parquet copy
      next to it, any other file itself. */
  function ConvertedPath(input: string): (p: string)
    ensures EndsWith(input, Csv) ==> EndsWith(p, Parquet)
    ensures !EndsWith(input, Csv) ==> p == input
    ensures !EndsWith(p, Csv)
  {
    if EndsWith(input, Csv) then
      SwapExtension(input, Csv, Parquet);
      ParquetIsNotCsv(ReplaceAll(input, Csv, Parquet));
      ReplaceAll(input, Csv, Parquet)
    else input
  }

  /** One iteration of step 1 for node source `s`: resolve its file, convert
      a CSV file next to itself, emit the source pointing at the file to load,
      and record its type. */
  function Admit(st: Pass, s: Source, dataDir: string): (r: Result<Pass>)
    requires Stored(st.sources, st.fs) && Tracks(st.types, st.sources)
    ensures r.Success? <==> Findable(s.path, st.fs.Keys, dataDir)
    ensures r.Failure? ==> r.error == FileNotFound(s.path)
    ensures r.Success? ==> st.fs.Keys <= r.value.fs.Keys
    ensures r.Success? ==> |r.value.sources| == |st.sources| + 1
    ensures r.Success? ==> r.value.sources == st.sources + [s.(path := r.value.sources[|st.sources|].path)]
    ensures r.Success? ==> Stored(r.value.sources, r.value.fs) && Tracks(r.value.types, r.value.sources)
    ensures r.Success? ==> ResolveNodePath(s.path, st.fs.Keys, dataDir).Success?
    // the source is emitted pointing at its resolved file, converted if CSV,
    // and that file now holds the resolved file's table; no other file changes
    ensures r.Success? ==>
      var input := ResolveNodePath(s.path, st.fs.Keys, dataDir).value.input;
      && r.value.sources[|st.sources|] == s.(path := ConvertedPath(input))
      && r.value.fs == st.fs[ConvertedPath(input) := st.fs[input]]
  {
    FindableResolves(s.path, st.fs.Keys, dataDir);
    var res :- ResolveNodePath(s.path, st.fs.Keys, dataDir);
    var p := ConvertedPath(res.input);
    var types := if Truthy(s.nodeType) then st.types.Put(s.nodeType.value, p) else st.types;
    TracksAppend(st.types, st.sources, s.(path := p));
    var out := Pass(st.fs[p := st.fs[res.input]], st.sources + [s.(path := p)], types);
    // a file that is not converted is emitted under its recorded path, which is itself
    if EndsWith(res.input, Csv) then Success(out) else ResolvedNonCsv(s.path, st.fs.Keys, dataDir); Success(out)
  }

  /** Step 1: every source except the relationship table, in order. */
  function NodePass(cfg: seq<Source>, env: Env): (r: Result<Pass>)
    decreases |cfg|
    ensures r.Failure? ==> exists i :: 0 <= i < |NodeSources(cfg)| && r.error == FileNotFound(NodeSources(cfg)[i].path)
    ensures r.Success? ==> env.fs.Keys <= r.value.fs.Keys
    ensures r.Success? ==> Emitted(NodeSources(cfg), r.value.sources)
    ensures r.Success? ==> Stored(r.value.sources, r.value.fs)
    ensures r.Success? ==> Tracks(r.value.types, r.value.sources)
  {
    if cfg == [] then Success(Pass(env.fs, [], Empty()))
    else
      var init := cfg[..|cfg| - 1];
      var s := cfg[|cfg| - 1];
      assert NodeSources(cfg) == if s.table == RelationshipsTable then NodeSources(init) else NodeSources(init) + [s];
      var st :- NodePass(init, env);
      if s.table == RelationshipsTable then Success(st)
      else
        var r := Admit(st, s, DataDir(env));
        assert r.Failure? ==> r.error == FileNotFound(NodeSources(cfg)[|NodeSources(init)|].path);
        r
  }

  /** When every node source's file can be found before the pass starts,
      the pass succeeds: conversions only add files. */
  lemma {:induction false} NodePassSucceeds(cfg: seq<Source>, env: Env)
    requires forall i :: 0 <= i < |NodeSources(cfg)| ==> Findable(NodeSources(cfg)[i].path, env.fs.Keys, DataDir(env))
    ensures NodePass(cfg, env).Success?
    decreases |cfg|
  {
    if cfg != [] {
      var init := cfg[..|cfg| - 1];
      var s := cfg[|cfg| - 1];
      assert NodeSources(cfg) == if s.table == RelationshipsTable then NodeSources(init) else NodeSources(init) + [s];
      NodePassSucceeds(init, env);
      var st := NodePass(init, env).value;
      if s.table != RelationshipsTable {
        assert NodeSources(cfg)[|NodeSources(init)|] == s;
        FindableGrows(s.path, env.fs.Keys, st.fs.Keys, DataDir(env));
      }
    }
  }

  /** A failed pass names a node source whose file could not be found
      anywhere before the pass started. */
  lemma {:induction false} NodePassFailure(cfg: seq<Source>, env: Env)
    requires NodePass(cfg, env).Failure?
    ensures exists i :: (0 <= i < |NodeSources(cfg)|
      && NodePass(cfg, env).error == FileNotFound(NodeSources(cfg)[i].path)
      && !Findable(NodeSources(cfg)[i].path, env.fs.Keys, DataDir(env)))
    decreases |cfg|
  {
    var init := cfg[..|cfg| - 1];
    var s := cfg[|cfg| - 1];
    var ns := NodeSources(cfg);
    assert ns == if s.table == RelationshipsTable then NodeSources(init) else NodeSources(init) + [s];
    if NodePass(init, env).Failure? {
      NodePassFailure(init, env);
      var i :| 0 <= i < |NodeSources(init)|
        && NodePass(init, env).error == FileNotFound(NodeSources(init)[i].path)
        && !Findable(NodeSources(init)[i].path, env.fs.Keys, DataDir(env));
      assert ns[i] == NodeSources(init)[i];
    } else {
      var st := NodePass(init, env).value;
      var k := |NodeSources(init)|;
      assert ns[k] == s;
      if Findable(s.path, env.fs.Keys, DataDir(env)) {
        FindableGrows(s.path, env.fs.Keys, st.fs.Keys, DataDir(env));
      }
    }
  }

  /** The pass over the first `k` sources is the start of the pass over
      them all: it succeeds, and what it emits is a prefix of what the whole
      pass emits. */
  lemma {:induction false} NodePassPrefix(cfg: seq<Source>, env: Env, k: nat)
    requires NodePass(cfg, env).Success? && k <= |cfg|
    ensures NodePass(cfg[..k], env).Success?
    ensures NodePass(cfg[..k], env).value.sources <= NodePass(cfg, env).value.sources
    decreases |cfg| - k
  {
    if k == |cfg| {
      assert cfg[..k] == cfg;
    } else {
      var init := cfg[..|cfg| - 1];
      assert init[..k] == cfg[..k];
      assert NodePass(init, env).Success?;
      NodePassPrefix(init, env, k);
    }
  }

  /** Node source `k` is emitted pointing at the file it resolves to among
      the files present at its step, converted if that is a CSV file, and its
      step stores that file's table under the emitted path and changes no
      other file. */
  lemma NodePassEmits(cfg: seq<Source>, env: Env, k: nat)
    requires NodePass(cfg, env).Success? && k < |cfg| && cfg[k].table != RelationshipsTable
    ensures NodePass(cfg[..k], env).Success? && NodePass(cfg[..k + 1], env).Success?
    ensures |NodeSources(cfg[..k])| < |NodePass(cfg, env).value.sources|
    ensures
      var before := NodePass(cfg[..k], env).value;
      && ResolveNodePath(cfg[k].path, before.fs.Keys, DataDir(env)).Success?
      && var input := ResolveNodePath(cfg[k].path, before.fs.Keys, DataDir(env)).value.input;
        && NodePass(cfg, env).value.sources[|NodeSources(cfg[..k])|] == cfg[k].(path := ConvertedPath(input))
        && NodePass(cfg[..k + 1], env).value.fs == before.fs[ConvertedPath(input) := before.fs[input]]
  {
    var pre := cfg[..k + 1];
    NodePassPrefix(cfg, env, k + 1);
    assert pre[..k] == cfg[..k] && pre[k] == cfg[k];
    NodePassPrefix(pre, env, k);
    var before := NodePass(cfg[..k], env).value;
    assert NodePass(pre, env) == Admit(before, cfg[k], DataDir(env));
  }

  // ---------------------------------------------------------------- relationships

  /** The first source of table `tb`. */
  function FirstWithTable(cfg: seq<Source>, tb: string): (r: Option<Source>)
    ensures r.None? <==> forall i :: 0 <= i < |cfg| ==> cfg[i].table != tb
    ensures r.Some? ==> exists i :: 0 <= i < |cfg| && cfg[i] == r.value && r.value.table == tb
                                 && forall j :: 0 <= j < i ==> cfg[j].table != tb
  {
    if cfg == [] then None
    else if cfg[0].table == tb then Some(cfg[0])
    else
      var r := FirstWithTable(cfg[1..], tb);
      assert forall i :: 1 <= i < |cfg| ==> cfg[i] == cfg[1..][i - 1];
      r
  }

  /** Every row names a type of `known` in both type columns. */
  ghost predicate TypedWith(rows: seq<Row>, known: set<string>) {
    forall row :: row in rows ==>
      && Cell(row, StartTypeColumn).Str? && Cell(row, StartTypeColumn).s in known
      && Cell(row, EndTypeColumn).Str? && Cell(row, EndTypeColumn).s in known
  }

  /** One typed relationship row as written: the relationship's own columns
      plus the two resolved types. */
  function Tag(t: TypedRow): Row {
    t.row[StartTypeColumn := Str(t.startType)][EndTypeColumn := Str(t.endType)]
  }

  /** `relationships_typed`: every relationship row whose two endpoints both
      occur in `nodes_map`, once per combination of their types. */
  function Enrich(raw: Table, nm: seq<MapEntry>): (out: Table)
    ensures out.columns == raw.columns + {StartTypeColumn, EndTypeColumn}
    ensures forall row :: row in out.rows <==>
      exists base, st, et :: base in raw.rows && row == Tag(TypedRow(base, st, et))
        && MapEntry(Cell(base, StartColumn), st) in nm && !Cell(base, StartColumn).Null?
        && MapEntry(Cell(base, EndColumn), et) in nm && !Cell(base, EndColumn).Null?
  {
    var typed := Join(raw.rows, nm);
    var rows := seq(|typed|, i requires 0 <= i < |typed| => Tag(typed[i]));
    assert forall row :: row in rows ==> exists t :: t in typed && row == Tag(t) by {
      forall row | row in rows ensures exists t :: t in typed && row == Tag(t) {
        var i :| 0 <= i < |rows| && rows[i] == row;
        assert typed[i] in typed;
      }
    }
    forall t: TypedRow ensures t in typed <==>
      && t.row in raw.rows
      && MapEntry(Cell(t.row, StartColumn), t.startType) in nm && !Cell(t.row, StartColumn).Null?
      && MapEntry(Cell(t.row, EndColumn), t.endType) in nm && !Cell(t.row, EndColumn).Null?
    {
      JoinMembership(raw.rows, nm, t);
    }
    forall row, base, st, et | base in raw.rows && row == Tag(TypedRow(base, st, et))
        && MapEntry(Cell(base, StartColumn), st) in nm && !Cell(base, StartColumn).Null?
        && MapEntry(Cell(base, EndColumn), et) in nm && !Cell(base, EndColumn).Null?
      ensures row in rows
    {
      var t := TypedRow(base, st, et);
      assert t in typed;
      var i :| 0 <= i < |typed| && typed[i] == t;
      assert rows[i] == row;
    }
    Table(raw.columns + {StartTypeColumn, EndTypeColumn}, rows)
  }

  /** The ingestion's output: the rewritten source list, and the files as left behind. */
  datatype Output = Output(sources: seq<Source>, fs: map<string, Table>)

  /** Some node source carries a truthy type, so relationships can be typed. */
  predicate HasNodeTypes(cfg: seq<Source>) {
    exists i :: 0 <= i < |NodeSources(cfg)| && Truthy(NodeSources(cfg)[i].nodeType)
  }

  /** The types recorded for the emitted node sources `ns` are their truthy
      types, and there is at least one exactly when some source has one. */
  lemma TracksTypes(ns: seq<Source>, sources: seq<Source>, types: Dict<string, string>)
    requires Emitted(ns, sources) && Tracks(types, sources)
    ensures (exists i :: 0 <= i < |ns| && Truthy(ns[i].nodeType)) <==> types.keys != []
    ensures forall t :: t in types.entries ==> t in TypeSet(ns)
  {
    if exists i :: 0 <= i < |ns| && Truthy(ns[i].nodeType) {
      var i :| 0 <= i < |ns| && Truthy(ns[i].nodeType);
      assert sources[i].nodeType == ns[i].nodeType;
      assert ns[i].nodeType.value in types.entries;
    }
    if types.keys != [] {
      assert types.keys[0] in types.entries;
    }
    forall t | t in types.entries ensures t in TypeSet(ns) {
      var i :| 0 <= i < |sources| && sources[i].nodeType == Some(t) && t != "";
      assert ns[i].nodeType == Some(t);
    }
  }

  /** Step 2 once node types exist: build `nodes_map`, join, and produce the
      typed table. Every row is typed on both ends by a type of `node_types`. */
  function TypeRelationships(types: Dict<string, string>, fs: map<string, Table>, relPath: string): (r: Result<Table>)
    requires types.Valid() && relPath in fs
    ensures r.Success? <==>
      (Readable(types.keys, types.entries, fs) && StartColumn in fs[relPath].columns && EndColumn in fs[relPath].columns)
    ensures r.Failure? ==> r.error == EngineError
    ensures r.Success? ==> TypedWith(r.value.rows, types.entries.Keys)
  {
    match NodesMap(types, fs)
    case Failure(e) => Failure(EngineError)
    case Success(nm) =>
      var raw := fs[relPath];
      if StartColumn !in raw.columns || EndColumn !in raw.columns then Failure(EngineError)
      else
        var out := Enrich(raw, nm);
        EnrichTypes(raw, nm, types.entries.Keys);
        Success(out)
  }

  /** Every type written by the enrichment is a type of some map entry. */
  lemma EnrichTypes(raw: Table, nm: seq<MapEntry>, types: set<string>)
    requires forall e :: e in nm ==> e.nodeType in types
    ensures TypedWith(Enrich(raw, nm).rows, types)
  {
    forall row | row in Enrich(raw, nm).rows
      ensures && Cell(row, StartTypeColumn).Str? && Cell(row, StartTypeColumn).s in types
              && Cell(row, EndTypeColumn).Str? && Cell(row, EndTypeColumn).s in types
    {
      var base, st, et :| base in raw.rows && row == Tag(TypedRow(base, st, et))
        && MapEntry(Cell(base, StartColumn), st) in nm && !Cell(base, StartColumn).Null?
        && MapEntry(Cell(base, EndColumn), et) in nm && !Cell(base, EndColumn).Null?;
      assert Cell(row, StartTypeColumn) == Str(st) && Cell(row, EndTypeColumn) == Str(et);
    }
  }

  /** The typed relationship file holds the tagged relationship rows whose
      endpoints both resolve to the node files of `node_types`, and nothing else. */
  lemma TypeRelationshipsRows(types: Dict<string, string>, fs: map<string, Table>, relPath: string, t: TypedRow, row: Row)
    requires types.Valid() && relPath in fs
    requires TypeRelationships(types, fs, relPath).Success?
    ensures Resolves(fs[relPath].rows, types, fs, t) ==> Tag(t) in TypeRelationships(types, fs, relPath).value.rows
    ensures row in TypeRelationships(types, fs, relPath).value.rows ==>
      exists u :: Resolves(fs[relPath].rows, types, fs, u) && row == Tag(u)
  {
    var nm := NodesMap(types, fs).value;
    var raw := fs[relPath];
    var out := TypeRelationships(types, fs, relPath).value;
    assert out == Enrich(raw, nm);
    JoinResolves(raw.rows, types, fs, t);
    JoinMembership(raw.rows, nm, t);
    if row in out.rows {
      var base, st, et :| base in raw.rows && row == Tag(TypedRow(base, st, et))
        && MapEntry(Cell(base, StartColumn), st) in nm && !Cell(base, StartColumn).Null?
        && MapEntry(Cell(base, EndColumn), et) in nm && !Cell(base, EndColumn).Null?;
      var u := TypedRow(base, st, et);
      JoinMembership(raw.rows, nm, u);
      JoinResolves(raw.rows, types, fs, u);
    }
  }

  function ProcessData(cfg: seq<Source>, env: Env): (r: Result<Output>)
    ensures r.Failure? ==> r.error.FileNotFound? || r.error == EngineError
    // it succeeds exactly when the node pass does and step 2 can go through after it
    ensures r.Success? <==>
      && NodePass(cfg, env).Success?
      && RelStepOk(NodePass(cfg, env).value, FirstWithTable(cfg, RelationshipsTable), DataDir(env))
    ensures r.Success? ==> env.fs.Keys <= r.value.fs.Keys
    // node sources first, in order, only their paths rewritten, each to an existing non-CSV file
    ensures r.Success? ==> |NodeSources(cfg)| <= |r.value.sources|
    ensures r.Success? ==>
      && Emitted(NodeSources(cfg), r.value.sources[..|NodeSources(cfg)|])
      && Stored(r.value.sources[..|NodeSources(cfg)|], r.value.fs)
    // then the relationship source, if configured
    ensures r.Success? && FirstWithTable(cfg, RelationshipsTable).None? ==> |r.value.sources| == |NodeSources(cfg)|
    ensures r.Success? && FirstWithTable(cfg, RelationshipsTable).Some? ==>
      var rel := FirstWithTable(cfg, RelationshipsTable).value;
      && |r.value.sources| == |NodeSources(cfg)| + 1
      && r.value.sources[|NodeSources(cfg)|] == (if HasNodeTypes(cfg) then rel.(path := EnrichedPath) else rel)
    // the typed relationships name node types on both ends
    ensures r.Success? && FirstWithTable(cfg, RelationshipsTable).Some? && HasNodeTypes(cfg) ==>
      EnrichedPath in r.value.fs && TypedWith(r.value.fs[EnrichedPath].rows, TypeSet(NodeSources(cfg)))
  {
    var st :- NodePass(cfg, env);
    TracksTypes(NodeSources(cfg), st.sources, st.types);
    var r := AddRelationships(st, FirstWithTable(cfg, RelationshipsTable), DataDir(env));
    if r.Success? then
      StoredGrows(st.sources, st.fs, r.value.fs);
      TypedWithMore(r.value.fs, st.types.entries.Keys, TypeSet(NodeSources(cfg)));
      assert r.value.sources[..|NodeSources(cfg)|] == st.sources;
      r
    else r
  }

  /** The node files of `types` all carry ids and the relationship file at
      `relPath` has both endpoint columns, so the typing queries run. */
  ghost predicate Typable(types: Dict<string, string>, fs: map<string, Table>, relPath: string)
    requires types.Valid() && relPath in fs
  {
    && Readable(types.keys, types.entries, fs)
    && StartColumn in fs[relPath].columns && EndColumn in fs[relPath].columns
  }

  /** Step 2 can go through after the node pass `st`: no relationship source,
      or its file can be found and, when there are node types to join with,
      the typing queries run on the file found. */
  ghost predicate RelStepOk(st: Pass, rel: Option<Source>, dataDir: string)
    requires st.types.Valid()
  {
    match rel
    case None => true
    case Some(rel) =>
      RelFindableResolves(rel.path, st.fs.Keys, dataDir);
      && RelFindable(rel.path, st.fs.Keys, dataDir)
      && (st.types.keys == [] || Typable(st.types, st.fs, ResolveRelPath(rel.path, st.fs.Keys, dataDir).value))
  }

  /** Step 2 after the node pass `st`, for the relationship source if one is
      configured: resolve its file, then emit it pointing at the typed file
      when there are node types, or unchanged when there are none. */
  function AddRelationships(st: Pass, rel: Option<Source>, dataDir: string): (r: Result<Output>)
    requires st.types.Valid()
    ensures r.Success? <==> RelStepOk(st, rel, dataDir)
    ensures r.Failure? ==> rel.Some? && (r.error == FileNotFound(rel.value.path) || r.error == EngineError)
    ensures r.Failure? && r.error.FileNotFound? ==> !RelFindable(rel.value.path, st.fs.Keys, dataDir)
    ensures r.Success? ==> st.fs.Keys <= r.value.fs.Keys
    ensures r.Success? && rel.None? ==> r.value.sources == st.sources
    ensures r.Success? && rel.Some? ==>
      r.value.sources == st.sources + [if st.types.keys != [] then rel.value.(path := EnrichedPath) else rel.value]
    ensures r.Success? && rel.Some? && st.types.keys != [] ==>
      EnrichedPath in r.value.fs && TypedWith(r.value.fs[EnrichedPath].rows, st.types.entries.Keys)
    // the typed file is the typing of the relationship file found; nothing else is written
    ensures r.Success? && (rel.None? || st.types.keys == []) ==> r.value.fs == st.fs
    ensures r.Success? && rel.Some? && st.types.keys != [] ==>
      && ResolveRelPath(rel.value.path, st.fs.Keys, dataDir).Success?
      && TypeRelationships(st.types, st.fs, ResolveRelPath(rel.value.path, st.fs.Keys, dataDir).value).Success?
      && r.value.fs == st.fs[EnrichedPath := TypeRelationships(st.types, st.fs, ResolveRelPath(rel.value.path, st.fs.Keys, dataDir).value).value]
  {
    match rel
    case None => Success(Output(st.sources, st.fs))
    case Some(rel) =>
      RelFindableResolves(rel.path, st.fs.Keys, dataDir);
      var relPath :- ResolveRelPath(rel.path, st.fs.Keys, dataDir);
      if st.types.keys == [] then Success(Output(st.sources + [rel], st.fs))
      else
        var out :- TypeRelationships(st.types, st.fs, relPath);
        Success(Output(st.sources + [rel.(path := EnrichedPath)], st.fs[EnrichedPath := out]))
  }

  /** A failed ingestion names a node source or the relationship source
      whose file could not be found anywhere before it started, or the
      typing queries failed. */
  lemma ProcessDataFailure(cfg: seq<Source>, env: Env)
    requires ProcessData(cfg, env).Failure?
    ensures var e := ProcessData(cfg, env).error;
      var rel := FirstWithTable(cfg, RelationshipsTable);
      || (exists i :: 0 <= i < |NodeSources(cfg)| && e == FileNotFound(NodeSources(cfg)[i].path)
                      && !Findable(NodeSources(cfg)[i].path, env.fs.Keys, DataDir(env)))
      || (rel.Some? && e == FileNotFound(rel.value.path) && !RelFindable(rel.value.path, env.fs.Keys, DataDir(env)))
      || (rel.Some? && HasNodeTypes(cfg) && e == EngineError)
  {
    if NodePass(cfg, env).Failure? {
      NodePassFailure(cfg, env);
    } else {
      var st := NodePass(cfg, env).value;
      var rel := FirstWithTable(cfg, RelationshipsTable);
      TracksTypes(NodeSources(cfg), st.sources, st.types);
      assert ProcessData(cfg, env) == AddRelationships(st, rel, DataDir(env));
      if rel.Some? && RelFindable(rel.value.path, env.fs.Keys, DataDir(env)) {
        RelFindableGrows(rel.value.path, env.fs.Keys, st.fs.Keys, DataDir(env));
      }
    }
  }

  /** When every node file and the relationship file can be found before
      the ingestion starts and no node source has a type, it succeeds. */
  lemma ProcessDataSucceedsUntyped(cfg: seq<Source>, env: Env)
    requires forall i :: 0 <= i < |NodeSources(cfg)| ==> Findable(NodeSources(cfg)[i].path, env.fs.Keys, DataDir(env))
    requires FirstWithTable(cfg, RelationshipsTable).Some? ==>
      RelFindable(FirstWithTable(cfg, RelationshipsTable).value.path, env.fs.Keys, DataDir(env))
    requires !HasNodeTypes(cfg)
    ensures ProcessData(cfg, env).Success?
  {
    NodePassSucceeds(cfg, env);
    var st := NodePass(cfg, env).value;
    var rel := FirstWithTable(cfg, RelationshipsTable);
    TracksTypes(NodeSources(cfg), st.sources, st.types);
    if rel.Some? {
      RelFindableGrows(rel.value.path, env.fs.Keys, st.fs.Keys, DataDir(env));
    }
  }

  /** Every node source leaves the ingestion as the node pass emitted it at
      its step: pointing at the file it resolves to, converted if CSV. */
  lemma ProcessDataEmits(cfg: seq<Source>, env: Env, k: nat)
    requires ProcessData(cfg, env).Success? && k < |cfg| && cfg[k].table != RelationshipsTable
    ensures NodePass(cfg[..k], env).Success?
    ensures |NodeSources(cfg[..k])| < |ProcessData(cfg, env).value.sources|
    ensures
      var before := NodePass(cfg[..k], env).value;
      && ResolveNodePath(cfg[k].path, before.fs.Keys, DataDir(env)).Success?
      && ProcessData(cfg, env).value.sources[|NodeSources(cfg[..k])|]
         == cfg[k].(path := ConvertedPath(ResolveNodePath(cfg[k].path, before.fs.Keys, DataDir(env)).value.input))
  {
    var st := NodePass(cfg, env).value;
    NodePassEmits(cfg, env, k);
    assert ProcessData(cfg, env) == AddRelationships(st, FirstWithTable(cfg, RelationshipsTable), DataDir(env));
  }

  /** The files after the ingestion are those after the node pass, plus,
      when there are a relationship source and node types, the typing of the
      relationship file found, stored under the typed file's path. */
  lemma ProcessDataFiles(cfg: seq<Source>, env: Env)
    requires ProcessData(cfg, env).Success?
    ensures NodePass(cfg, env).Success?
    ensures FirstWithTable(cfg, RelationshipsTable).None? || !HasNodeTypes(cfg) ==>
      ProcessData(cfg, env).value.fs == NodePass(cfg, env).value.fs
    ensures FirstWithTable(cfg, RelationshipsTable).Some? && HasNodeTypes(cfg) ==>
      var st := NodePass(cfg, env).value;
      var relPath := ResolveRelPath(FirstWithTable(cfg, RelationshipsTable).value.path, st.fs.Keys, DataDir(env));
      && relPath.Success?
      && TypeRelationships(st.types, st.fs, relPath.value).Success?
      && ProcessData(cfg, env).value.fs == st.fs[EnrichedPath := TypeRelationships(st.types, st.fs, relPath.value).value]
  {
    var st := NodePass(cfg, env).value;
    TracksTypes(NodeSources(cfg), st.sources, st.types);
    assert ProcessData(cfg, env) == AddRelationships(st, FirstWithTable(cfg, RelationshipsTable), DataDir(env));
  }

  /** Adding files keeps every stored path stored. */
  lemma StoredGrows(sources: seq<Source>, fs: map<string, Table>, fs': map<string, Table>)
    requires Stored(sources, fs) && fs.Keys <= fs'.Keys
    ensures Stored(sources, fs')
  {
  }

  /** A typed file typed with some types is typed with any larger set of types. */
  lemma TypedWithMore(fs: map<string, Table>, known: set<string>, more: set<string>)
    requires known <= more
    ensures EnrichedPath in fs && TypedWith(fs[EnrichedPath].rows, known) ==> TypedWith(fs[EnrichedPath].rows, more)
  {
  }

  // ---------------------------------------------------------------- scenarios

  /** A configuration of one node source runs one step of the node pass. */
  lemma ProcessOneSource(s: Source, env: Env)
    requires s.table != RelationshipsTable
    ensures ProcessData([s], env) ==
      match Admit(Pass(env.fs, [], Empty()), s, DataDir(env))
      case Failure(e) => Failure(e)
      case Success(st) => Success(Output(st.sources, st.fs))
  {
    var cfg := [s];
    assert cfg[..0] == [];
    assert NodeSources(cfg) == [s];
    assert NodePass(cfg, env) == Admit(Pass(env.fs, [], Empty()), s, DataDir(env));
    assert FirstWithTable(cfg, RelationshipsTable).None?;
  }

  /** A CSV path whose basename exists in the data directory resolves there. */
  lemma CsvInDataDirResolves(path: string, files: set<string>, dataDir: string)
    requires EndsWith(path, Csv) && Paths.Join(dataDir, Paths.Basename(path)) in files
    ensures var envPath := Paths.Join(dataDir, Paths.Basename(path));
      && ResolveNodePath(path, files, dataDir) == Success(Resolved(envPath, envPath))
      && EndsWith(envPath, Csv)
  {
    BasenameKeepsSuffix(path, Csv);
    JoinKeepsSuffix(dataDir, Paths.Basename(path), Csv);
  }

  /** A CSV path whose Parquet sibling exists in the data directory, and
      nothing earlier does, resolves to that sibling. */
  lemma ParquetInDataDirResolves(path: string, files: set<string>, dataDir: string)
    requires EndsWith(path, Csv)
    requires Paths.Join(dataDir, Paths.Basename(path)) !in files
    requires Paths.Join(dataDir, ReplaceAll(Paths.Basename(path), Csv, Parquet)) in files
    ensures var envParquet := Paths.Join(dataDir, ReplaceAll(Paths.Basename(path), Csv, Parquet));
      && ResolveNodePath(path, files, dataDir) == Success(Resolved(envParquet, envParquet))
      && !EndsWith(envParquet, Csv)
  {
    var envParquet := Paths.Join(dataDir, ReplaceAll(Paths.Basename(path), Csv, Parquet));
    BasenameKeepsSuffix(path, Csv);
    SwapExtension(Paths.Basename(path), Csv, Parquet);
    JoinKeepsSuffix(dataDir, ReplaceAll(Paths.Basename(path), Csv, Parquet), Parquet);
    ParquetIsNotCsv(envParquet);
  }

  /** A CSV node source whose file sits in the data directory under its
      basename is converted there, and the source is emitted pointing at the
      Parquet copy next to it. */
  lemma CsvFoundInDataDir(s: Source, env: Env)
    requires s.table != RelationshipsTable && EndsWith(s.path, Csv)
    requires Paths.Join(DataDir(env), Paths.Basename(s.path)) in env.fs
    ensures var envPath := Paths.Join(DataDir(env), Paths.Basename(s.path));
      var r := ProcessData([s], env);
      && r.Success?
      && r.value.sources == [s.(path := ReplaceAll(envPath, Csv, Parquet))]
      && EndsWith(r.value.sources[0].path, Parquet)
      && r.value.fs[r.value.sources[0].path] == env.fs[envPath]
  {
    var envPath := Paths.Join(DataDir(env), Paths.Basename(s.path));
    ProcessOneSource(s, env);
    CsvInDataDirResolves(s.path, env.fs.Keys, DataDir(env));
    SwapExtension(envPath, Csv, Parquet);
  }

  /** A CSV node source found nowhere, but with a Parquet file of the same
      name in the data directory, is emitted pointing at that file and nothing
      is converted. */
  lemma ParquetFoundInDataDir(s: Source, env: Env)
    requires s.table != RelationshipsTable && EndsWith(s.path, Csv)
    requires Paths.Join(DataDir(env), Paths.Basename(s.path)) !in env.fs
    requires Paths.Join(DataDir(env), ReplaceAll(Paths.Basename(s.path), Csv, Parquet)) in env.fs
    ensures var envParquet := Paths.Join(DataDir(env), ReplaceAll(Paths.Basename(s.path), Csv, Parquet));
      var r := ProcessData([s], env);
      && r.Success?
      && r.value.sources == [s.(path := envParquet)]
      && r.value.fs == env.fs
  {
    ProcessOneSource(s, env);
    ParquetInDataDirResolves(s.path, env.fs.Keys, DataDir(env));
  }
}

=== FILE: selection.dfy ===
/** Order-preserving selection, the shape of a `WHERE` filter followed by a
    projection: the output holds one image per selected input, in input order. */
module Selection {

  /** `ys` holds, in order, the image under `f` of exactly the elements of
      `xs` that `keep` selects, one image per element: `idx` lists the
      selected positions in increasing order. */
  ghost predicate SelectedBy<T, U>(xs: seq<T>, keep: T -> bool, f: T -> U, ys: seq<U>, idx: seq<nat>) {
    && Images(xs, keep, f, ys, idx)
    && Increasing(idx)
    && Covers(xs, keep, idx)
  }

  /** Each `ys[j]` is the image of the selected element at position `idx[j]`. */
  ghost predicate Images<T, U>(xs: seq<T>, keep: T -> bool, f: T -> U, ys: seq<U>, idx: seq<nat>) {
    && |idx| == |ys|
    && forall j :: 0 <= j < |idx| ==> idx[j] < |xs| && keep(xs[idx[j]]) && ys[j] == f(xs[idx[j]])
  }

  ghost predicate Increasing(idx: seq<nat>) {
    forall j, k :: 0 <= j < k < |idx| ==> idx[j] < idx[k]
  }

  /** Every selected position is listed. */
  ghost predicate Covers<T>(xs: seq<T>, keep: T -> bool, idx: seq<nat>) {
    forall i :: 0 <= i < |xs| && keep(xs[i]) ==> i in idx
  }

  function Shift(idx: seq<nat>): (s: seq<nat>)
    ensures |s| == |idx| && forall j :: 0 <= j < |idx| ==> s[j] == idx[j] + 1
  {
    seq(|idx|, j requires 0 <= j < |idx| => idx[j] + 1)
  }

  /** Nothing is selected from nothing. */
  lemma SelectNil<T, U>(keep: T -> bool, f: T -> U)
    ensures SelectedBy([], keep, f, [], [])
  {
  }

  /** Selection over `[x] + xs` is the selection of `x`, if kept, followed
      by the selection over `xs`. */
  lemma SelectCons<T, U>(x: T, xs: seq<T>, keep: T -> bool, f: T -> U, ys: seq<U>, idx: seq<nat>) returns (idx': seq<nat>)
    requires SelectedBy(xs, keep, f, ys, idx)
    ensures SelectedBy([x] + xs, keep, f, (if keep(x) then [f(x)] else []) + ys, idx')
  {
    var o := if keep(x) then [0] else [];
    idx' := o + Shift(idx);
    ImagesCons(x, xs, keep, f, ys, idx);
    IncreasingCons(idx, keep(x));
    CoversCons(x, xs, keep, idx);
  }

  lemma ImagesCons<T, U>(x: T, xs: seq<T>, keep: T -> bool, f: T -> U, ys: seq<U>, idx: seq<nat>)
    requires Images(xs, keep, f, ys, idx)
    ensures Images([x] + xs, keep, f, (if keep(x) then [f(x)] else []) + ys, (if keep(x) then [0] else []) + Shift(idx))
  {
    var xs' := [x] + xs;
    var ys' := (if keep(x) then [f(x)] else []) + ys;
    var sh := Shift(idx);
    var idx' := (if keep(x) then [0] else []) + sh;
    var o := if keep(x) then 1 else 0;
    forall j | 0 <= j < |idx'| ensures idx'[j] < |xs'| && keep(xs'[idx'[j]]) && ys'[j] == f(xs'[idx'[j]]) {
      if j < o {
        assert idx'[j] == 0 && ys'[j] == f(x);
      } else {
        assert idx'[j] == sh[j - o] == idx[j - o] + 1;
        assert ys'[j] == ys[j - o];
        assert xs'[idx[j - o] + 1] == xs[idx[j - o]];
      }
    }
  }

  lemma IncreasingCons(idx: seq<nat>, kept: bool)
    requires Increasing(idx)
    ensures Increasing((if kept then [0] else []) + Shift(idx))
  {
    var sh := Shift(idx);
    var idx' := (if kept then [0] else []) + sh;
    var o := if kept then 1 else 0;
    forall j, k | 0 <= j < k < |idx'| ensures idx'[j] < idx'[k] {
      assert idx'[k] == sh[k - o] == idx[k - o] + 1;
      if j >= o {
        assert idx'[j] == sh[j - o] == idx[j - o] + 1;
      }
    }
  }

  lemma CoversCons<T>(x: T, xs: seq<T>, keep: T -> bool, idx: seq<nat>)
    requires Covers(xs, keep, idx)
    ensures Covers([x] + xs, keep, (if keep(x) then [0] else []) + Shift(idx))
  {
    var xs' := [x] + xs;
    var sh := Shift(idx);
    var idx' := (if keep(x) then [0] else []) + sh;
    var o := if keep(x) then 1 else 0;
    forall i | 0 <= i < |xs'| && keep(xs'[i]) ensures i in idx' {
      if i > 0 {
        assert xs'[i] == xs[i - 1];
        var j :| 0 <= j < |idx| && idx[j] == i - 1;
        assert idx'[j + o] == i;
      } else {
        assert idx'[0] == 0;
      }
    }
  }
}

=== FILE: strings.dfy ===
/** The string operations the system borrows from Python: suffix tests,
    `str.replace` (every non-overlapping occurrence, scanned left to right),
    ASCII `str.lower` and the decimal rendering of integers. */
module Strings {

  predicate StartsWith(s: string, prefix: string) {
    |prefix| <= |s| && s[..|prefix|] == prefix
  }

  predicate EndsWith(s: string, suffix: string) {
    |suffix| <= |s| && s[|s| - |suffix|..] == suffix
  }

  /** `pat` cannot overlap a shifted copy of itself: no proper suffix is also a prefix. */
  predicate NoSelfOverlap(pat: string) {
    forall k :: 0 < k < |pat| ==> pat[k..] != pat[..|pat| - k]
  }

  /** Python's `s.replace(pat, rep)`: scan left to right, replacing each
      occurrence of `pat` and resuming after it. */
  function ReplaceAll(s: string, pat: string, rep: string): string
    requires |pat| > 0
    decreases |s|
  {
    if |s| < |pat| then s
    else if s[..|pat|] == pat then rep + ReplaceAll(s[|pat|..], pat, rep)
    else [s[0]] + ReplaceAll(s[1..], pat, rep)
  }

  /** A string without the pattern's first character is left unchanged. */
  lemma {:induction false} ReplaceAllAbsent(s: string, pat: string, rep: string)
    requires |pat| > 0 && pat[0] !in s
    ensures ReplaceAll(s, pat, rep) == s
    decreases |s|
  {
    if |s| >= |pat| {
      assert s[..|pat|][0] == s[0];
      ReplaceAllAbsent(s[1..], pat, rep);
      assert [s[0]] + s[1..] == s;
    }
  }

  lemma ReplaceAllShort(s: string, pat: string, rep: string)
    requires 0 < |pat| && |s| < |pat|
    ensures ReplaceAll(s, pat, rep) == s
  {
  }

  /** Replacing a pattern that cannot overlap itself distributes over a
      trailing occurrence: the final `pat` is always one of the matches. */
  lemma {:induction false} ReplaceAllTrailing(p: string, pat: string, rep: string)
    requires |pat| > 0 && NoSelfOverlap(pat)
    ensures ReplaceAll(p + pat, pat, rep) == ReplaceAll(p, pat, rep) + rep
    decreases |p|
  {
    var s := p + pat;
    if |p| == 0 {
      assert s == pat;
      assert s[|pat|..] == [];
    } else if s[..|pat|] == pat {
      if |p| < |pat| {
        // `pat` would start inside itself at shift |p|
        SelfOverlapWitness(p, pat);
        assert false;
      } else {
        assert p[..|pat|] == pat;
        assert s[|pat|..] == p[|pat|..] + pat;
        ReplaceAllTrailing(p[|pat|..], pat, rep);
      }
    } else {
      assert s[1..] == p[1..] + pat;
      ReplaceAllTrailing(p[1..], pat, rep);
      if |p| < |pat| {
        ReplaceAllShort(p, pat, rep);
        ReplaceAllShort(p[1..], pat, rep);
        assert [p[0]] + p[1..] == p;
      } else {
        assert p[..|pat|] != pat by {
          assert s[..|pat|] == p[..|pat|];
        }
      }
    }
  }

  lemma SelfOverlapWitness(p: string, pat: string)
    requires 0 < |p| < |pat| && (p + pat)[..|pat|] == pat
    ensures pat[|p|..] == pat[..|pat| - |p|]
  {
    var s := p + pat;
    var k := |p|;
    assert pat[k..] == s[k..|pat|];
    assert s[k..|pat|] == pat[..|pat| - k];
  }

  lemma CsvParquetNoSelfOverlap()
    ensures NoSelfOverlap(".csv") && NoSelfOverlap(".parquet")
  {
    var c := ".csv";
    forall k | 0 < k < |c| ensures c[k..] != c[..|c| - k] {
      assert c[k..][0] != '.';
    }
    var q := ".parquet";
    forall k | 0 < k < |q| ensures q[k..] != q[..|q| - k] {
      assert q[k..][0] != '.';
    }
  }

  /** Swapping the `.csv` suffix of a path always yields a `.parquet` path, and
      the reverse swap turns `.parquet` paths into `.csv` paths. */
  lemma {:induction false} SwapExtension(s: string, from: string, to: string)
    requires (from, to) == (".csv", ".parquet") || (from, to) == (".parquet", ".csv")
    requires EndsWith(s, from)
    ensures EndsWith(ReplaceAll(s, from, to), to)
    ensures ReplaceAll(s, from, to) == ReplaceAll(s[..|s| - |from|], from, to) + to
  {
    CsvParquetNoSelfOverlap();
    var p := s[..|s| - |from|];
    assert p + from == s;
    ReplaceAllTrailing(p, from, to);
  }

  function LowerChar(c: char): char {
    if 'A' <= c <= 'Z' then (c as int + 32) as char else c
  }

  /** ASCII case folding of `str.lower`. */
  function Lower(s: string): (r: string)
    ensures |r| == |s|
    ensures forall i :: 0 <= i < |s| ==> !('A' <= r[i] <= 'Z')
    ensures forall i :: 0 <= i < |s| && !('A' <= s[i] <= 'Z') ==> r[i] == s[i]
    ensures forall i :: 0 <= i < |s| && 'A' <= s[i] <= 'Z' ==> r[i] as int == s[i] as int + ('a' as int - 'A' as int)
  {
    seq(|s|, i requires 0 <= i < |s| => LowerChar(s[i]))
  }

  /** Lowering is idempotent: an already lowered name is its own lowering. */
  lemma LowerIdempotent(s: string)
    ensures Lower(Lower(s)) == Lower(s)
  {
  }

  function DigitChar(d: nat): char
    requires d < 10
  {
    "0123456789"[d]
  }

  function NatText(n: nat): (r: string)
    ensures |r| > 0
    ensures forall i :: 0 <= i < |r| ==> '0' <= r[i] <= '9'
    decreases n
  {
    if n < 10 then [DigitChar(n)] else NatText(n / 10) + [DigitChar(n % 10)]
  }

  /** Python's `str()` of an integer. */
  function IntText(i: int): string {
    if i < 0 then "-" + NatText(-i) else NatText(i)
  }
}

=== FILE: tables.dfy ===
/** Tables as the query engine and the dataframe layer hand them around:
    rows are maps from column name to a scalar value. */
module Tables {
  import opened Strings

  /** A scalar cell. `NaN` is the dataframe's not-a-number marker and `Null`
      is SQL NULL / Python `None`. */
  datatype Value = Str(s: string) | Num(n: int) | NaN | Null

  type Row = map<string, Value>

  datatype Table = Table(columns: set<string>, rows: seq<Row>)

  /** The engine's catalog as the request handlers see it: the table names in
      the order `SHOW TABLES` lists them, the contents of each table, and the
      vertex and edge labels the property graph `icij_graph` declares. */
  datatype Database = Database(names: seq<string>, tables: map<string, Table>, vertexLabels: set<string>, edgeLabels: set<string>)

  /** The cell of `col` in `r`; a row without that column reads as NULL. */
  function Cell(r: Row, col: string): Value {
    if col in r then r[col] else Null
  }

  /** Python's `str()` of a cell. */
  function Render(v: Value): string {
    match v
    case Str(s) => s
    case Num(n) => IntText(n)
    case NaN => "nan"
    case Null => "None"
  }

  /** Cells that can identify a node: text or integers. */
  predicate IsKey(v: Value) {
    v.Str? || v.Num?
  }

  /** The engine's comparison of a cell with a textual id (`col = 'id'`,
      `col = ?`, `col IN (...)`): NULL and NaN never match. */
  predicate Matches(v: Value, id: string) {
    IsKey(v) && Render(v) == id
  }

  /** SQL equality in a join: equal values, and NULL joins with nothing. */
  predicate SqlEq(a: Value, b: Value) {
    !a.Null? && a == b
  }

  /** `row.replace({nan: None})`: every NaN becomes NULL, everything else stays. */
  function Clean(r: Row): (c: Row)
    ensures c.Keys == r.Keys
    ensures forall k :: k in c ==> c[k] != NaN
    ensures forall k :: k in r && r[k] != NaN ==> c[k] == r[k]
  {
    map k | k in r :: if r[k] == NaN then Null else r[k]
  }

  /** Cleaning does not change a cell that identifies a node. */
  lemma CleanKeepsKey(r: Row, col: string)
    requires IsKey(Cell(r, col))
    ensures Cell(Clean(r), col) == Cell(r, col)
  {
  }
}
